=== FILE: README.md ===
# OpenAPI smoke-test generator and API client, modelled in Dafny

This project models two parts of a Playwright test repository:

- The pure core of the OpenAPI smoke-test generator (`scripts/generate-api-tests.ts`). It walks a parsed OpenAPI document:
  - every path key in document order;
  - within each path, the methods `get`, `post`, `put`, `patch`, `delete`, `head`, `options`, in that order;
  - it produces one test file per truthy operation.

  Each file gets three things:
  - a file name from `sanitizeForFileName`;
  - a title from `buildTestTitle`, with its single quotes escaped;
  - a `urlPath` expression, in which every `{p}` reads `PATH_<P>` and falls back to `REPLACE_<P>`.

  The generator also picks a default server URL.
- The request-preparation helpers of the API client (`tests/api/lib/client.ts`):
  - base-URL precedence and removal of one trailing slash;
  - auth-header selection;
  - `resolvePathParams`, which takes explicit parameters before the environment, fails on a missing or falsy value, and percent-encodes what it inserts;
  - the header set and init guard of `send`;
  - the 500-character body snippet.

Module layout, one file each:

| file | module | what it holds |
|---|---|---|
| `wrappers.dfy` | `Wrappers` | `Option`, `Result`, and JavaScript truthiness of an optional string |
| `ascii.dfy` | `Ascii` | character classes, and upper-casing |
| `http.dfy` | `Http` | the seven methods, their walk order and spellings |
| `placeholders.dfy` | `Placeholders` | the `\{([^}]+)\}` scanner both programs share: `Tokenize`, `Fill`, `HasPathParams`, `EnvVarName` |
| `filename.dfy` | `FileName` | `sanitizeForFileName` step by step |
| `testtitle.dfy` | `TestTitle` | `buildTestTitle` and the quote escaping of the test name |
| `pathtemplate.dfy` | `PathTemplate` | the `urlPath` expression, its text (`Show`) and its run-time value (`Eval`) |
| `generator.dfy` | `Generator` | the schema, the walk, the generated files, the default server, the note file |
| `uri.dfy` | `UriComponent` | `encodeURIComponent` with full UTF-8, and a percent decoder as its inverse |
| `client.dfy` | `Client` | the `ApiClient` constructor, `resolvePathParams`, `init`, `send` and `textSnippet` |
| `agreement.dfy` | `Agreement` | when a generated test and the client request the same path, and when they do not |

The schema is abstract: a sequence of `(pathPattern, Option<PathItem>)` pairs in key order. A `PathItem` maps a method to `Option<Operation>`:
- a missing key is an absent method;
- `None` is a falsy value.

The environment is an explicit `map<string, string>`, where a missing key is an unset variable. The request context that `init` creates is represented by an identifier passed in as a parameter.

Three points follow the code rather than what one might expect of the generator:
- A sanitized name keeps both underscores. `get_/customers/{customerId}` becomes `get__customers_customerId`, not `get_customers_customerId`, because `_` is in the allowed class (`FileName.CustomerIdExample`).
- Files are named `<name>.spec.ts`.
- No index or manifest file is written. The index lines are collected but never saved; only `_README.generated.ts` is written.

## Model

| member | source | states |
|---|---|---|
| Placeholders.MatchAt | scripts/generate-api-tests.ts:48 | At a position, the placeholder expression matches exactly when the text opens with `{` and the first `}` after it is at least two characters on. When it does not match, no end position works. |
| Placeholders.Tokenize | scripts/generate-api-tests.ts:51 | Every placeholder the global replace meets has a non-empty name without `}`. |
| Placeholders.TokenizeRoundTrip | scripts/generate-api-tests.ts:51 | Putting every matched name back between braces gives the pattern back. The scan loses nothing, invents nothing, and keeps literal text in order. |
| Placeholders.HasPathParamsIff | scripts/generate-api-tests.ts:48-51 | `.test` on the pattern succeeds exactly when the global replace meets at least one placeholder. |
| Placeholders.FillWithoutParams | scripts/generate-api-tests.ts:52 | A pattern with no placeholder is left unchanged by every replacement. |
| Placeholders.TokenizePlaceholder | scripts/generate-api-tests.ts:51 | A well-formed `{name}` is matched whole, whatever follows it. |
| Placeholders.TokenizeLiteralPrefix | scripts/generate-api-tests.ts:51 | Text without `{` is scanned as literal characters, one by one. |
| Placeholders.FillCongruent | tests/api/lib/client.ts:37 | Two replacement callbacks that agree on the pattern's placeholder names produce the same string. |
| FileName.WordOnly | scripts/generate-api-tests.ts:27 | Deleting `\W` inside a placeholder leaves only word characters and never lengthens the text. |
| FileName.WordOnlyAppend | scripts/generate-api-tests.ts:27 | The deletion works character by character: it distributes over concatenation. |
| FileName.WordOnlyKeepsWords | scripts/generate-api-tests.ts:27 | Word characters are all kept. |
| FileName.WordOnlyDropsNonWords | scripts/generate-api-tests.ts:27 | Non-word characters are all deleted. Together with the two rows above, this fixes the result for every input: exactly the word characters, in order. |
| FileName.WordOnlyOfMatchIsWordOnly | scripts/generate-api-tests.ts:27 | Inside a match, the braces go together with every other non-word character of the name. |
| FileName.WordOnlyOfMatchKeepsName | scripts/generate-api-tests.ts:27 | A placeholder whose name is all word characters becomes its bare name, with the braces dropped. |
| FileName.CollapseRuns | scripts/generate-api-tests.ts:28 | After the run replacement, every character is in `[A-Za-z0-9_-]`, and the text is no longer than before. |
| FileName.CollapseRun | scripts/generate-api-tests.ts:28 | A maximal run of disallowed characters becomes exactly one `_`. |
| FileName.CollapseIdentityIff | scripts/generate-api-tests.ts:28 | The run replacement leaves a string unchanged exactly when all of its characters are allowed. |
| FileName.CollapseKeepsSkeleton | scripts/generate-api-tests.ts:28 | Allowed characters other than `_` survive the run replacement in their original order. |
| FileName.KeepsAllowedPrefix | scripts/generate-api-tests.ts:28 | Allowed text, underscores included, passes through the run replacement untouched whatever follows it, so an existing `__` is never merged into one `_`. |
| FileName.TrimUnderscores | scripts/generate-api-tests.ts:29 | The result is a slice of the input with only underscores removed at either end. Neither end of the result is `_`. |
| FileName.SanitizeForFileName | scripts/generate-api-tests.ts:25-31 | The name uses only `[A-Za-z0-9_-]` and has at most 200 characters. It has exactly 200 when the untruncated result is longer. It never starts with `_`. It does not end with `_` unless the 200-character cut exposed one. |
| FileName.SanitizeIdempotent | scripts/generate-api-tests.ts:25-31 | When no truncation happens, sanitizing a sanitized name changes nothing. |
| FileName.CapExposesUnderscore | scripts/generate-api-tests.ts:29-30 | Stripping runs before the cut. For 199 letters followed by `/b`, the name ends in `_`, and sanitizing it again gives a different name. |
| FileName.StripTrailingPlaceholder | scripts/generate-api-tests.ts:27 | For a brace-free prefix and any placeholder name, step 1 keeps the prefix and replaces `{name}` by the word characters of the name. |
| FileName.HyphenatedNameExample | scripts/generate-api-tests.ts:27 | `/offers/{offer-id}` becomes `/offers/offerid`: the hyphen inside the braces is deleted. |
| FileName.PlaceholderPathName | scripts/generate-api-tests.ts:104 | `<m>_/<a>/{<n>}` sanitizes to `<m>__<a>_<n>`. The underscore after the method stays next to the one the slash became. |
| FileName.GiftIdExample | scripts/generate-api-tests.ts:104 | `get_/gifts/{giftId}` becomes `get__gifts_giftId`, the name of the shipped test file. |
| FileName.CustomerIdExample | scripts/generate-api-tests.ts:104 | `get_/customers/{customerId}` becomes `get__customers_customerId`, not `get_customers_customerId`. |
| FileName.NameCollision | scripts/generate-api-tests.ts:104-107 | Two different paths, `/<a>/<b>` and `/<a>_<b>`, give the same file name, so the second file written replaces the first. |
| TestTitle.BuildTestTitle | scripts/generate-api-tests.ts:33-36 | The title starts with the upper-cased method, a space and the path. It continues, as ` - <summary>`, exactly when the summary is present and non-empty. |
| TestTitle.EscapeQuotes | scripts/generate-api-tests.ts:59 | Every `'` in the escaped title has a backslash in front of it. The length grows by exactly the number of quotes. |
| TestTitle.EscapeInverse | scripts/generate-api-tests.ts:59 | For every title, including ones with backslashes or line breaks, reading each `\'` back as `'` restores the title. The escaping only inserts those backslashes and changes nothing else. |
| TestTitle.EscapeRoundTrip | scripts/generate-api-tests.ts:59 | For a title without backslashes or line breaks, the escaped text is a valid single-quoted literal body that denotes the title exactly. |
| TestTitle.BackslashBreaksLiteral | scripts/generate-api-tests.ts:59 | Backslashes are not escaped. A title ending in `\` yields a test name that swallows the closing quote. |
| PathTemplate.ResolvedPathExpr | scripts/generate-api-tests.ts:48-52 | Without a placeholder, the expression is the pattern in single quotes. Otherwise it is a template whose pieces, re-braced, give back the pattern and contain a placeholder. |
| PathTemplate.EvalIsSubstitution | scripts/generate-api-tests.ts:50-52 | For a pattern the emitted code reads as written, either form requests the pattern with each placeholder replaced by its environment lookup and every literal character kept. |
| PathTemplate.QuotedReadsPattern | scripts/generate-api-tests.ts:52 | The quoted form of a safe placeholder-free pattern is a well-formed single-quoted literal that denotes exactly the pattern. |
| PathTemplate.ApostropheBreaksQuoted | scripts/generate-api-tests.ts:52 | The pattern is pasted without escaping: `/o'neil` is emitted as `'/o'neil'`, which is not a well-formed literal. |
| PathTemplate.OnePlaceholderSafe | scripts/generate-api-tests.ts:51 | `<prefix>{<n>}` is read as written when the prefix has no backslash, backtick, carriage return or `{`, and the name no double quote, backslash or line break. |
| PathTemplate.EnvLookupNeverEmpty | scripts/generate-api-tests.ts:51 | A placeholder is never replaced by the empty string: an unset or empty variable gives the `REPLACE_<P>` fallback, so no path segment silently disappears. |
| PathTemplate.OnePlaceholderShow | scripts/generate-api-tests.ts:50-51 | `<prefix>{<n>}` is written as a backtick template: the prefix, then `${process.env["PATH_<N>"] \|\| "REPLACE_<N>"}`. |
| PathTemplate.PassesExample | tests/api/generated/get__passes.spec.ts:7 | `/passes` is written as `'/passes'`. |
| PathTemplate.GiftIdShow | tests/api/generated/get__gifts_giftId.spec.ts:7 | `/gifts/{giftId}` is written as the template in the shipped `get__gifts_giftId` test. |
| Http.Rank | scripts/generate-api-tests.ts:100 | Each method has one position in the fixed walk order. |
| Generator.Present | scripts/generate-api-tests.ts:101-102 | A method is visited exactly when it is in the list and its entry is truthy. Absent and falsy entries are skipped. |
| Generator.PresentOrdered | scripts/generate-api-tests.ts:100-102 | The methods of one path come out in `get, post, put, patch, delete, head, options` order. |
| Generator.PositionsUpTo | scripts/generate-api-tests.ts:97-111 | The walk over the first `n` keys is strictly ordered: by key index, then by method. It contains a place exactly when that place's operation is truthy. |
| Generator.PositionsUnique | scripts/generate-api-tests.ts:98-101 | Any strictly ordered listing of exactly the generating places is the walk itself. |
| Generator.OrderedUnique | scripts/generate-api-tests.ts:98-101 | Two strictly ordered sequences with the same elements are equal. |
| Generator.CountIsPlaces | scripts/generate-api-tests.ts:108 | The walk visits each truthy operation once: its length is the number of generating places. |
| Generator.FileFor | scripts/generate-api-tests.ts:104-106 | The file's base name is the sanitized `<method>_<path>`, and the file name is that plus `.spec.ts`. The title comes from `buildTestTitle`, and the test name is the title with its quotes escaped. The request method is the lower-case method. The `urlPath` slot is quoted exactly when the path has no placeholder. A security comment is present exactly when the operation has security requirements. |
| Generator.GiftIdFile | tests/api/generated/get__gifts_giftId.spec.ts:3-16 | `get` on `/gifts/{giftId}` with summary `Get gift` gives the shipped file: its name, its test name, `request.get`, and its `urlPath` line. |
| Generator.WalkPath | scripts/generate-api-tests.ts:100-103 | The inner loop yields the places of one path's truthy methods, in method order. |
| Generator.Generate | scripts/generate-api-tests.ts:97-111 | The loops write one file per generating place, in walk order. `generatedCount` equals the number of files and the number of truthy operations. |
| Generator.WalkExample | scripts/generate-api-tests.ts:98-103 | `/a` with `get`, then `/b` with `post` and `get`, gives `get /a`, `get /b`, `post /b`. |
| Generator.DefaultServerUrl | scripts/generate-api-tests.ts:38-40 | The default is the first server's URL when the server list is present and non-empty, and none otherwise. |
| Generator.DefaultServerStable | scripts/generate-api-tests.ts:39 | Listing further servers after the first never changes the default. |
| Generator.ReadmeNote | scripts/generate-api-tests.ts:114-115 | The note shows the default URL verbatim, even when empty, and shows `n/a` only when there is none. |
| UriComponent.Utf8 | tests/api/lib/client.ts:42 | A character encodes to 1–4 bytes, a single byte exactly for ASCII, and every byte after the first is a continuation byte. |
| UriComponent.Utf8RoundTrip | tests/api/lib/client.ts:42 | The bytes of a character decode back to its scalar value, and the lead byte announces the sequence length. |
| UriComponent.Percent | tests/api/lib/client.ts:42 | Byte `k` of the input becomes the three characters `%`, its high hex digit and its low hex digit, in upper case. |
| UriComponent.EncodeURIComponent | tests/api/lib/client.ts:42 | The output uses only unreserved characters, `%` and upper-case hex digits, and is never shorter than the input. |
| UriComponent.EncodeAppend | tests/api/lib/client.ts:42 | Encoding a concatenation encodes each part and concatenates the results, so the result is fixed character by character. |
| UriComponent.EncodeOne | tests/api/lib/client.ts:42 | An unreserved character is kept as it is. Any other character becomes the upper-case `%XY` escapes of its UTF-8 bytes. |
| UriComponent.SlashExample | tests/api/lib/client.ts:42 | `a/b` encodes to `a%2Fb`: the letters stay and only the slash is escaped. |
| UriComponent.EncodeIdentityIff | tests/api/lib/client.ts:42 | Encoding leaves a string unchanged exactly when all its characters are unreserved. |
| UriComponent.EncodeRoundTrip | tests/api/lib/client.ts:42 | Percent-decoding the encoded string gives exactly the UTF-8 bytes of the original. |
| Client.FirstTruthy | tests/api/lib/client.ts:10 | An `\|\|` chain gives the first non-empty candidate, or the fallback when there is none. |
| Client.BasePrecedence | tests/api/lib/client.ts:10 | The base is the configured URL if non-empty, else `BASE_URL` if set and non-empty, else `PW_BASE_URL`, else the staging default. |
| Client.StripTrailingSlash | tests/api/lib/client.ts:11 | The result is a prefix of the input. It is one character shorter exactly when the input ends in `/`. |
| Client.StripOneSlash | tests/api/lib/client.ts:11 | Only one slash goes: `u/` gives `u`, and `u//` gives `u/`. |
| Client.BaseUrlEmptyIff | tests/api/lib/client.ts:10-11 | The stored base URL is empty exactly when the chosen base is a lone `/`. |
| Client.AuthHeader | tests/api/lib/client.ts:12 | A configured auth header wins even when empty. Only an undefined one falls back to `AUTH_HEADER`. |
| Client.EmptyAuthSendsNone | tests/api/lib/client.ts:12 | A configured empty auth header hides `AUTH_HEADER`. A client built with it and initialised sends exactly the caller's headers, with no `Authorization` of its own. |
| Client.AuthReachesSend | tests/api/lib/client.ts:12 | When the chosen auth header is non-empty, every request of the initialised client carries it as `Authorization`. |
| Client.IntToStringRoundTrip | tests/api/lib/client.ts:42 | `String(n)` of an integer parameter reads back as the same integer. |
| Client.NatToStringRoundTrip | tests/api/lib/client.ts:42 | The decimal digits of a natural number denote that number. |
| Client.ChosenValue | tests/api/lib/client.ts:40 | An explicit parameter is chosen whenever its key exists. Only without one is `PATH_<NAME>` read, as a string. |
| Client.ExplicitFalsyShadowsEnv | tests/api/lib/client.ts:40-41 | An explicit `""` or `0` still shadows the environment, and then the placeholder fails. |
| Client.ResolveSucceeds | tests/api/lib/client.ts:36-44 | When every placeholder has a usable value, resolution succeeds. Literal text is kept and each placeholder becomes its percent-encoded value. |
| Client.ResolveFails | tests/api/lib/client.ts:41 | Otherwise resolution fails, naming the first placeholder without a value and the variable `PATH_<NAME>` that was tried. |
| Client.ResolveFailsIff | tests/api/lib/client.ts:36-44 | Resolution fails exactly when some placeholder of the template has no usable value. |
| Client.NoPlaceholderUnchanged | tests/api/lib/client.ts:37 | A template without placeholders comes back unchanged, whatever the parameters and environment. |
| Client.OutgoingHeaders | tests/api/lib/client.ts:48-49 | The headers are the caller's, unchanged except `Authorization`. A non-empty auth value overrides the caller's `Authorization`. Otherwise the caller's `Authorization` is kept if present. |
| Client.NewClient | tests/api/lib/client.ts:9-13 | A new client has no request context. It stores the chosen base with one trailing slash removed. It stores the configured auth header when one is defined, even an empty one, and otherwise `AUTH_HEADER`. |
| Client.Init | tests/api/lib/client.ts:15-19 | After `init`, a context exists. An existing context is kept. A new one carries the client's base URL. |
| Client.InitIdempotent | tests/api/lib/client.ts:16-18 | A second `init` changes nothing. |
| Client.Send | tests/api/lib/client.ts:46-49 | `send` fails with "not initialized" exactly when there is no context. Otherwise it uses that context, the merged headers, the pathname and the method. |
| Client.SendNeedsInit | tests/api/lib/client.ts:47 | A new client cannot send. After `init` it sends through the context `init` created. |
| Client.TextSnippet | tests/api/lib/client.ts:65 | The snippet is the body's prefix of length `min(500, body length)`. |
| Client.SnippetStable | tests/api/lib/client.ts:65 | A body of at most 500 characters is returned whole, and a snippet is its own snippet. |
| Agreement.GeneratedMatchesClient | tests/api/lib/client.ts:36-44 | Consider a pattern the emitted code reads as written, with no explicit parameters, and every `PATH_<NAME>` set, non-empty and free of reserved characters. Then the client resolves the same path the generated test requests. |
| Agreement.UnsetVariableDiverges | scripts/generate-api-tests.ts:51 | For a safe prefix and name with `PATH_<NAME>` unset, the generated test requests `<prefix>REPLACE_<NAME>`, while the client fails with a missing-parameter error. |
| Agreement.ReservedValueDiverges | tests/api/lib/client.ts:42 | For a safe prefix and name, a value with a reserved character is inserted raw by the generated test and percent-encoded by the client, so the two paths differ. |

## Left out

- File-system and YAML work:
  - schema reading and parsing, the existence check with exit code 1, directory creation, file writes, console output;
  - the parsed document is an input, and a list of files is the output;
  - writes are not interleaved with the walk: `Generator.Generate` renders the files after walking;
  - a later file with the same name replaces an earlier one on disk (see `FileName.NameCollision`); the model keeps both in the list.
- Generated file body: only its slots are modelled (title, escaped test name, request method, `urlPath` expression, security comment). The boilerplate is fixed text that carries no logic: the auth snippet, the `new URL` call, and the two status assertions.
- `indexLines` and `pathParamHints`: computed but never used, so they have no model.
- `JSON.stringify` of `operation.security`: the model receives the JSON text, and `None` when the value is falsy.
- Operation fields of unexpected types (a non-string summary, a path item that is not an object, a server without `url`): not modelled. The model uses the types the generator declares.
- `Object.keys` order: JavaScript lists integer-like keys first. Path keys start with `/`, so the model takes the document order as given.
- Upper-casing: `Ascii.Upper` maps only `a`–`z`. JavaScript's full Unicode case mapping (for example `ß` to `SS`) is not modelled. This affects titles, `PATH_`/`REPLACE_` names and the client's variable names.
- `buildUrl` and `new URL(...)`: they depend on the WHATWG URL parser, which is not part of this model. Query parameters are therefore not modelled either, and `send` is modelled up to the `fetch` call.
- Request dispatch, `dispose`, and the `json`/`text` readers: network I/O, left out.
- Concurrent `init` calls: not modelled. `init` awaits the context creation, and the model is sequential.
- `Client.ParamValue`: numbers are integers only. `String(n)` for fractions, `NaN`, infinities and magnitudes of `1e21` or more (exponent notation) is not modelled.
- Parameter names that reach `Object.prototype` (such as `constructor`): not modelled.
- `Client.TextSnippet`: counts Unicode scalar values, while JavaScript's `slice` counts UTF-16 code units, which differ for characters outside the Basic Multilingual Plane.
- `UriComponent.EncodeURIComponent`: the lone surrogates on which JavaScript throws cannot occur, because a Dafny `char` is a scalar value.
- PathTemplate.EvalIsSubstitution: stated only for safe patterns. The generator pastes the pattern into the emitted code without escaping. The emitted code is then invalid, or denotes another string, in these cases:
  - a quoted pattern holding `'`, `\` or a line break;
  - template text holding `\`, a backtick, a carriage return, or `$` before a literal `{`;
  - a placeholder name holding `"`, `\` or a line break.

  `PathTemplate.ApostropheBreaksQuoted` shows the quoted case. JavaScript's escape and template-substitution reading of such text is not modelled.
  Only the quoted form has a modelled reader, `PathTemplate.QuotedReadsPattern`. For the backtick template form, the value of safe template text is `Eval`'s substitution by definition. It is not derived from the text `Show` emits.
- Agreement.GeneratedMatchesClient: stated only for safe patterns, for the same reason as `PathTemplate.EvalIsSubstitution`.
- Agreement.UnsetVariableDiverges: stated only for a prefix without `\`, a backtick or a carriage return, and a name without `"`, `\` or line breaks. For other inputs the emitted template does not denote `<prefix>REPLACE_<NAME>`.
- Agreement.ReservedValueDiverges: the same restriction on the prefix and the name as `Agreement.UnsetVariableDiverges`.
- TestTitle.EscapeRoundTrip: stated only for titles without backslashes, carriage returns or line feeds. The code escapes only `'`, so for other titles the emitted name is not the title; `TestTitle.BackslashBreaksLiteral` shows the backslash case.
- FileName.SanitizeIdempotent: stated only when no truncation happens. With truncation it does not hold (`FileName.CapExposesUnderscore`).
- `tests/api/lib/expect.ts`, the generated test files (used only as golden examples), and all UI pages, fixtures and helpers: outside the generator and the client.

=== FILE: agreement.dfy ===
/**
 * How the path a generated test requests relates to the path the API client resolves for the same
 * pattern: both read `PATH_<NAME>`, but the generated test inserts the raw value or the
 * `REPLACE_<NAME>` fallback, while the client percent-encodes the value and refuses a missing one.
 */
module Agreement {
  import opened Wrappers
  import opened Placeholders
  import opened PathTemplate
  import opened UriComponent
  import opened Client

  /** Every placeholder of the pattern has a non-empty variable that needs no escaping. */
  predicate PlainEnvFor(pattern: string, env: Env)
  {
    forall n :: n in ParamNames(Tokenize(pattern)) ==>
      EnvVarName(n) in env && env[EnvVarName(n)] != "" && AllUnescaped(env[EnvVarName(n)])
  }

  /** For a pattern whose emitted expression JavaScript reads as written, under such an environment
      and with no explicit parameters, the generated test and the client request the same path. */
  lemma GeneratedMatchesClient(pattern: string, env: Env)
    requires SafePattern(pattern) && PlainEnvFor(pattern, env)
    ensures ResolvePathParams(pattern, map[], env) == Success(Eval(ResolvedPathExpr(pattern), env))
  {
    var ts := Tokenize(pattern);
    var none: Params := map[];
    EvalIsSubstitution(pattern, env);
    forall n | n in ParamNames(ts) ensures Resolvable(none, env, n) {
    }
    ResolveSucceeds(ts, none, env);
    forall n | n in ParamNames(ts) ensures Substitution(none, env)(n) == EnvLookup(env)(n) {
      EncodeIdentityIff(env[EnvVarName(n)]);
    }
    FillCongruent(ts, Substitution(none, env), EnvLookup(env));
  }

  /** With `PATH_<NAME>` unset, the generated test requests the literal `REPLACE_<NAME>` while the
      client refuses to resolve the path. */
  lemma UnsetVariableDiverges(a: string, n: string, env: Env)
    requires SafePrefix(a) && |n| > 0 && '}' !in n && NameSafe(n) && EnvVarName(n) !in env
    ensures SafePattern(a + "{" + n + "}")
    ensures Eval(ResolvedPathExpr(a + "{" + n + "}"), env) == a + FallbackName(n)
    ensures ResolvePathParams(a + "{" + n + "}", map[], env) == Failure(MissingParam(n, EnvVarName(n)))
  {
    var none: Params := map[];
    var p := a + "{" + n + "}";
    OnePlaceholderTokens(a, n);
    OnePlaceholderSafe(a, n);
    EvalIsSubstitution(p, env);
    FillOnePlaceholder(a, n, EnvLookup(env));
    var ts := Tokenize(p);
    var lits := seq(|a|, i requires 0 <= i < |a| => Lit(a[i]));
    ParamNamesAppend(lits, [Param(n)]);
    LiteralsHaveNoNames(lits);
    assert ParamNames([Param(n)]) == [n];
    assert ParamNames(ts) == [n];
    ResolveFails(ts, none, env, 0);
  }

  lemma {:induction false} LiteralsHaveNoNames(ts: seq<Token>)
    requires forall i :: 0 <= i < |ts| ==> ts[i].Lit?
    ensures ParamNames(ts) == []
    decreases |ts|
  {
    if |ts| > 0 {
      LiteralsHaveNoNames(ts[1..]);
    }
  }

  /** A value that needs escaping is inserted raw by the generated test and encoded by the client,
      so the two request different paths. */
  lemma ReservedValueDiverges(a: string, n: string, env: Env)
    requires SafePrefix(a) && |n| > 0 && '}' !in n && NameSafe(n)
    requires EnvVarName(n) in env && env[EnvVarName(n)] != "" && !AllUnescaped(env[EnvVarName(n)])
    ensures var v := env[EnvVarName(n)];
            Eval(ResolvedPathExpr(a + "{" + n + "}"), env) == a + v
            && ResolvePathParams(a + "{" + n + "}", map[], env) == Success(a + EncodeURIComponent(v))
            && EncodeURIComponent(v) != v
    ensures SafePattern(a + "{" + n + "}")
  {
    var none: Params := map[];
    var p := a + "{" + n + "}";
    var v := env[EnvVarName(n)];
    OnePlaceholderTokens(a, n);
    OnePlaceholderSafe(a, n);
    EvalIsSubstitution(p, env);
    FillOnePlaceholder(a, n, EnvLookup(env));
    var ts := Tokenize(p);
    var lits := seq(|a|, i requires 0 <= i < |a| => Lit(a[i]));
    ParamNamesAppend(lits, [Param(n)]);
    LiteralsHaveNoNames(lits);
    assert ParamNames([Param(n)]) == [n];
    assert ParamNames(ts) == [n];
    assert Resolvable(none, env, n);
    ResolveSucceeds(ts, none, env);
    FillOnePlaceholder(a, n, Substitution(none, env));
    EncodeIdentityIff(v);
  }
}

=== FILE: ascii.dfy ===
/** Character classes and case mapping, restricted to ASCII. */
module Ascii {

  predicate IsUpper(c: char) { 'A' <= c <= 'Z' }

  predicate IsLower(c: char) { 'a' <= c <= 'z' }

  predicate IsDigit(c: char) { '0' <= c <= '9' }

  predicate IsAlnum(c: char) { IsUpper(c) || IsLower(c) || IsDigit(c) }

  /** The class `\w` of a JavaScript regular expression without the `u` flag. */
  predicate IsWordChar(c: char) { IsAlnum(c) || c == '_' }

  /** `toUpperCase` on one character: ASCII lower-case letters move up, everything else is kept. */
  function ToUpper(c: char): char
  {
    if IsLower(c) then (c as int - 32) as char else c
  }

  /** `toUpperCase` on a string, character by character. */
  function Upper(s: string): string
  {
    seq(|s|, i requires 0 <= i < |s| => ToUpper(s[i]))
  }
}

=== FILE: client.dfy ===
/**
 * The pure parts of the API client (`ApiClient` in the client library): base-URL and auth-header
 * selection in the constructor, placeholder resolution, the header set and init guard of `send`,
 * and the body snippet. The process environment is an explicit map; a missing key is an unset
 * variable.
 */
module Client {
  import opened Wrappers
  import opened Ascii
  import opened Http
  import opened Placeholders
  import opened UriComponent

  type Env = map<string, string>

  /** The value of an environment variable, when it is set. */
  function EnvValue(env: Env, name: string): Option<string>
  {
    if name in env then Some(env[name]) else None
  }

  const DefaultBaseUrl: string := "https://api.staging.stardustlab.com"

  /** `ApiClientConfig`: `baseURL` is required but may be empty; `authHeader` may be undefined. */
  datatype Config = Config(baseURL: string, authHeader: Option<string>)

  /** `c0 || c1 || … || fallback` over optional strings. */
  function FirstTruthy(cands: seq<Option<string>>, fallback: string): (r: string)
    ensures (forall i :: 0 <= i < |cands| ==> !IsTruthy(cands[i])) ==> r == fallback
    ensures forall i :: (0 <= i < |cands| && IsTruthy(cands[i])
                         && (forall j :: 0 <= j < i ==> !IsTruthy(cands[j]))) ==> r == cands[i].value
  {
    if |cands| == 0 then fallback
    else if IsTruthy(cands[0]) then cands[0].value
    else
      var r := FirstTruthy(cands[1..], fallback);
      assert forall i :: 1 <= i < |cands| ==> cands[1..][i - 1] == cands[i];
      r
  }

  /** The base the constructor chooses: the configured URL, then `BASE_URL`, then `PW_BASE_URL`,
      each only when non-empty, and otherwise the staging default. */
  function ChooseBase(config: Config, env: Env): string
  {
    FirstTruthy([Some(config.baseURL), EnvValue(env, "BASE_URL"), EnvValue(env, "PW_BASE_URL")], DefaultBaseUrl)
  }

  /** Removes one final slash, when there is one, and changes nothing else. */
  function StripTrailingSlash(s: string): (r: string)
    ensures |r| <= |s| && r == s[..|r|]
    ensures |r| < |s| <==> |s| > 0 && s[|s| - 1] == '/'
    ensures |s| - 1 <= |r|
  {
    if |s| > 0 && s[|s| - 1] == '/' then s[..|s| - 1] else s
  }

  /** The base URL a client stores. */
  function BaseUrl(config: Config, env: Env): string
  {
    StripTrailingSlash(ChooseBase(config, env))
  }

  /** The auth header: a configured value wins even when empty, and only an undefined one falls
      back to `AUTH_HEADER`. */
  function AuthHeader(config: Config, env: Env): (r: Option<string>)
    ensures config.authHeader.Some? ==> r == config.authHeader
    ensures config.authHeader.None? ==> (r.Some? <==> "AUTH_HEADER" in env)
    ensures config.authHeader.None? && r.Some? ==> r.value == env["AUTH_HEADER"]
  {
    if config.authHeader.Some? then config.authHeader else EnvValue(env, "AUTH_HEADER")
  }

  /** The base URL follows the precedence chain: the configured URL when non-empty, otherwise a
      non-empty `BASE_URL`, otherwise a non-empty `PW_BASE_URL`, otherwise the staging default. */
  lemma BasePrecedence(config: Config, env: Env)
    ensures var base := ChooseBase(config, env);
            var b := EnvValue(env, "BASE_URL");
            var pw := EnvValue(env, "PW_BASE_URL");
            (config.baseURL != "" ==> base == config.baseURL)
            && (config.baseURL == "" && IsTruthy(b) ==> base == b.value)
            && (config.baseURL == "" && !IsTruthy(b) && IsTruthy(pw) ==> base == pw.value)
            && (config.baseURL == "" && !IsTruthy(b) && !IsTruthy(pw) ==> base == DefaultBaseUrl)
  {
    var cands := [Some(config.baseURL), EnvValue(env, "BASE_URL"), EnvValue(env, "PW_BASE_URL")];
    assert cands[0] == Some(config.baseURL);
    assert cands[1] == EnvValue(env, "BASE_URL");
    assert cands[2] == EnvValue(env, "PW_BASE_URL");
  }

  /** Exactly one trailing slash is removed: `u/` gives `u`, and `u//` gives `u/`. */
  lemma StripOneSlash(u: string)
    ensures StripTrailingSlash(u + "/") == u
    ensures StripTrailingSlash(u + "//") == u + "/"
  {
    assert (u + "/")[..|u|] == u;
    assert (u + "//")[..|u| + 1] == u + "/";
  }

  /** The base URL is empty only when the chosen base is a lone `/`. */
  lemma BaseUrlEmptyIff(config: Config, env: Env)
    ensures BaseUrl(config, env) == "" <==> ChooseBase(config, env) == "/"
  {
    var base := ChooseBase(config, env);
    if BaseUrl(config, env) == "" {
      assert |base| == 1;
      assert base == [base[0]];
    }
  }

  /** A path parameter, `string | number`; numbers are modelled as integers. */
  datatype ParamValue = Str(s: string) | Num(n: int)

  /** JavaScript truthiness of a parameter value. */
  predicate IsTruthyValue(v: Option<ParamValue>)
  {
    v.Some? && match v.value
               case Str(s) => s != ""
               case Num(n) => n != 0
  }

  function DigitChar(d: nat): (c: char)
    requires d < 10
    ensures IsDigit(c)
  {
    ('0' as int + d) as char
  }

  /** Decimal digits of a natural number, without leading zeros. */
  function NatToString(n: nat): (r: string)
    ensures |r| > 0 && forall i :: 0 <= i < |r| ==> IsDigit(r[i])
    ensures |r| > 1 ==> r[0] != '0'
  {
    if n < 10 then [DigitChar(n)] else NatToString(n / 10) + [DigitChar(n % 10)]
  }

  /** The number a string of decimal digits denotes. */
  function DigitsValue(s: string): nat
    requires forall i :: 0 <= i < |s| ==> IsDigit(s[i])
  {
    if |s| == 0 then 0
    else
      assert IsDigit(s[|s| - 1]);
      DigitsValue(s[..|s| - 1]) * 10 + (s[|s| - 1] as int - '0' as int)
  }

  lemma {:induction false} NatToStringRoundTrip(n: nat)
    ensures DigitsValue(NatToString(n)) == n
    decreases n
  {
    if n >= 10 {
      NatToStringRoundTrip(n / 10);
      var r := NatToString(n);
      assert r[..|r| - 1] == NatToString(n / 10);
    }
  }

  /** The decimal text JavaScript gives an integer: a minus sign for a negative one, no leading
      zeros. */
  function IntToString(n: int): string
  {
    if n < 0 then "-" + NatToString(-n) else NatToString(n)
  }

  /** Reads back what `IntToString` writes. */
  function ParseInt(s: string): Option<int>
  {
    if |s| > 0 && s[0] == '-' && |s| > 1 && forall i :: 1 <= i < |s| ==> IsDigit(s[i]) then
      var v: int := DigitsValue(s[1..]);
      Some(-v)
    else if |s| > 0 && forall i :: 0 <= i < |s| ==> IsDigit(s[i]) then
      Some(DigitsValue(s))
    else None
  }

  lemma IntToStringRoundTrip(n: int)
    ensures ParseInt(IntToString(n)) == Some(n)
  {
    if n < 0 {
      NatToStringRoundTrip(-n);
      var r := IntToString(n);
      assert r[1..] == NatToString(-n);
      assert !IsDigit(r[0]);
    } else {
      NatToStringRoundTrip(n);
    }
  }

  /** The text of a parameter value. */
  function ValueText(v: ParamValue): string
  {
    match v
    case Str(s) => s
    case Num(n) => IntToString(n)
  }

  type Params = map<string, ParamValue>

  /** The value a placeholder takes: an explicit parameter whenever its key exists, otherwise the
      variable `PATH_<NAME>`. */
  function ChosenValue(params: Params, env: Env, name: string): (v: Option<ParamValue>)
    ensures name in params ==> v == Some(params[name])
    ensures name !in params ==> (v.Some? <==> EnvVarName(name) in env)
    ensures name !in params && v.Some? ==> v.value == Str(env[EnvVarName(name)])
  {
    if name in params then Some(params[name])
    else if EnvVarName(name) in env then Some(Str(env[EnvVarName(name)]))
    else None
  }

  /** The failure `resolvePathParams` raises: the placeholder and the variable it tried. */
  datatype PathError = MissingParam(name: string, envName: string)

  predicate Resolvable(params: Params, env: Env, name: string)
  {
    IsTruthyValue(ChosenValue(params, env, name))
  }

  /** The percent-encoded text of a placeholder's value. */
  function Encoded(params: Params, env: Env, name: string): string
  {
    var v := ChosenValue(params, env, name);
    if IsTruthyValue(v) then EncodeURIComponent(ValueText(v.value)) else ""
  }

  /** The replacement callback for one piece of the template. */
  function ResolveToken(t: Token, params: Params, env: Env): Result<string, PathError>
  {
    match t
    case Lit(c) => Success([c])
    case Param(n) =>
      if Resolvable(params, env, n) then Success(Encoded(params, env, n))
      else Failure(MissingParam(n, EnvVarName(n)))
  }

  /** The global replace of `resolvePathParams`, left to right, stopping at the first placeholder
      whose value is missing or falsy. */
  function ResolveTokens(ts: seq<Token>, params: Params, env: Env): Result<string, PathError>
  {
    if |ts| == 0 then Success("")
    else match ResolveToken(ts[0], params, env)
      case Failure(e) => Failure(e)
      case Success(head) =>
        match ResolveTokens(ts[1..], params, env)
        case Failure(e) => Failure(e)
        case Success(rest) => Success(head + rest)
  }

  /** The client's resolution of a path template against explicit parameters and the environment. */
  function ResolvePathParams(template: string, params: Params, env: Env): Result<string, PathError>
  {
    ResolveTokens(Tokenize(template), params, env)
  }

  /** The replacement of every placeholder that has a value. */
  function Substitution(params: Params, env: Env): string -> string
  {
    (name: string) => Encoded(params, env, name)
  }

  lemma FirstNames(ts: seq<Token>)
    requires |ts| > 0
    ensures ParamNames(ts) == (if ts[0].Param? then [ts[0].name] else []) + ParamNames(ts[1..])
  {
  }

  /** When every placeholder has a value, resolution succeeds with the literal text kept in place
      and each placeholder replaced by its percent-encoded value. */
  lemma {:induction false} ResolveSucceeds(ts: seq<Token>, params: Params, env: Env)
    requires forall n :: n in ParamNames(ts) ==> Resolvable(params, env, n)
    ensures ResolveTokens(ts, params, env) == Success(Fill(ts, Substitution(params, env)))
    decreases |ts|
  {
    if |ts| > 0 {
      FirstNames(ts);
      ResolveSucceeds(ts[1..], params, env);
      var f := Substitution(params, env);
      match ts[0]
      case Lit(c) =>
        assert ResolveToken(ts[0], params, env) == Success([c]);
      case Param(n) =>
        assert n in ParamNames(ts);
        assert ResolveToken(ts[0], params, env) == Success(f(n));
    }
  }

  /** When some placeholder has no value, resolution fails, naming the first such placeholder and
      the environment variable that was tried. */
  lemma {:induction false} ResolveFails(ts: seq<Token>, params: Params, env: Env, k: nat)
    requires k < |ParamNames(ts)| && !Resolvable(params, env, ParamNames(ts)[k])
    requires forall j :: 0 <= j < k ==> Resolvable(params, env, ParamNames(ts)[j])
    ensures var n := ParamNames(ts)[k];
            ResolveTokens(ts, params, env) == Failure(MissingParam(n, EnvVarName(n)))
    decreases |ts|
  {
    FirstNames(ts);
    var names := ParamNames(ts);
    var rest := ParamNames(ts[1..]);
    if ts[0].Param? {
      assert names == [ts[0].name] + rest;
      if k > 0 {
        assert names[0] == ts[0].name;
        assert Resolvable(params, env, names[0]);
        forall j | 0 <= j < k - 1 ensures Resolvable(params, env, rest[j]) {
          assert rest[j] == names[j + 1];
        }
        assert rest[k - 1] == names[k];
        ResolveFails(ts[1..], params, env, k - 1);
      }
    } else {
      assert names == rest;
      ResolveFails(ts[1..], params, env, k);
    }
  }

  /** Resolution fails exactly when some placeholder of the template has no usable value. */
  lemma ResolveFailsIff(template: string, params: Params, env: Env)
    ensures ResolvePathParams(template, params, env).Failure?
            <==> exists n :: n in ParamNames(Tokenize(template)) && !Resolvable(params, env, n)
  {
    var ts := Tokenize(template);
    var names := ParamNames(ts);
    if exists n :: n in names && !Resolvable(params, env, n) {
      var k := FirstUnresolvable(params, env, names);
      ResolveFails(ts, params, env, k);
    } else {
      ResolveSucceeds(ts, params, env);
    }
  }

  /** The index of the first name without a usable value. */
  lemma FirstUnresolvable(params: Params, env: Env, names: seq<string>) returns (k: nat)
    requires exists n :: n in names && !Resolvable(params, env, n)
    ensures k < |names| && !Resolvable(params, env, names[k])
    ensures forall j :: 0 <= j < k ==> Resolvable(params, env, names[j])
  {
    var n :| n in names && !Resolvable(params, env, n);
    var idx :| 0 <= idx < |names| && names[idx] == n;
    k := 0;
    while k < idx && Resolvable(params, env, names[k])
      invariant k <= idx
      invariant forall j :: 0 <= j < k ==> Resolvable(params, env, names[j])
    {
      k := k + 1;
    }
  }

  /** A template with no placeholder is returned unchanged, whatever the parameters. */
  lemma NoPlaceholderUnchanged(template: string, params: Params, env: Env)
    requires !HasPathParams(template)
    ensures ResolvePathParams(template, params, env) == Success(template)
  {
    HasPathParamsIff(template);
    ResolveSucceeds(Tokenize(template), params, env);
    FillWithoutParams(template, Substitution(params, env));
  }

  /** An explicit parameter shadows the environment even when it is empty or zero, and then the
      resolution fails although `PATH_<NAME>` holds a usable value. */
  lemma ExplicitFalsyShadowsEnv(params: Params, env: Env, name: string)
    requires name in params && (params[name] == Str("") || params[name] == Num(0))
    ensures ChosenValue(params, env, name) == Some(params[name])
    ensures !Resolvable(params, env, name)
  {
  }

  /** The headers of a request: a copy of the caller's, with `Authorization` set when the auth
      header is non-empty. */
  function OutgoingHeaders(caller: Option<map<string, string>>, auth: Option<string>): (h: map<string, string>)
    ensures var base := if caller.Some? then caller.value else map[];
            (forall k :: k != "Authorization" ==> (k in h <==> k in base))
            && (forall k :: k in h && k != "Authorization" ==> h[k] == base[k])
            && ("Authorization" in h <==> IsTruthy(auth) || "Authorization" in base)
            && (IsTruthy(auth) ==> h["Authorization"] == auth.value)
            && (!IsTruthy(auth) && "Authorization" in base ==> h["Authorization"] == base["Authorization"])
  {
    var base := if caller.Some? then caller.value else map[];
    if IsTruthy(auth) then base["Authorization" := auth.value] else base
  }


  /** The playwright request context, created by `init`; `id` tells contexts apart. */
  datatype Context = Context(id: nat, baseURL: string)

  datatype ApiClient = ApiClient(baseURL: string, authHeader: Option<string>, context: Option<Context>)

  /** A newly constructed client. */
  function NewClient(config: Config, env: Env): (c: ApiClient)
    ensures c.context.None?
    ensures c.baseURL == StripTrailingSlash(ChooseBase(config, env))
    ensures config.authHeader.Some? ==> c.authHeader == config.authHeader
    ensures config.authHeader.None? ==> c.authHeader == EnvValue(env, "AUTH_HEADER")
  {
    ApiClient(BaseUrl(config, env), AuthHeader(config, env), None)
  }

  /** Initialisation: a context is created once, with the client's base URL; `newId` stands for the
      context the library hands out. */
  function Init(c: ApiClient, newId: nat): (r: ApiClient)
    ensures r.context.Some? && r.baseURL == c.baseURL && r.authHeader == c.authHeader
    ensures c.context.Some? ==> r == c
    ensures c.context.None? ==> r.context == Some(Context(newId, c.baseURL))
  {
    if c.context.None? then c.(context := Some(Context(newId, c.baseURL))) else c
  }

  /** A second `init` keeps the first context. */
  lemma InitIdempotent(c: ApiClient, a: nat, b: nat)
    ensures Init(Init(c, a), b) == Init(c, a)
  {
  }

  datatype RequestOptions = RequestOptions(headers: Option<map<string, string>>, body: Option<string>)

  /** What `send` hands to the context's `fetch`, before the URL is built from the pathname. */
  datatype PreparedRequest = PreparedRequest(
    context: Context, verb: HttpMethod, methodName: string, pathname: string,
    headers: map<string, string>, body: Option<string>)

  datatype SendError = NotInitialized

  /** Sending a request, up to the network call. */
  function Send(c: ApiClient, verb: HttpMethod, pathname: string, options: RequestOptions): (r: Result<PreparedRequest, SendError>)
    ensures r.Failure? <==> c.context.None?
    ensures r.Success? ==> r.value.context == c.context.value
                           && r.value.headers == OutgoingHeaders(options.headers, c.authHeader)
                           && r.value.pathname == pathname && r.value.methodName == WireName(verb)
  {
    if c.context.None? then Failure(NotInitialized)
    else Success(PreparedRequest(c.context.value, verb, WireName(verb), pathname,
                                 OutgoingHeaders(options.headers, c.authHeader), options.body))
  }

  /** A new client cannot send; after `init` it can, through the context `init` created. */
  lemma SendNeedsInit(config: Config, env: Env, newId: nat, verb: HttpMethod, pathname: string, options: RequestOptions)
    ensures Send(NewClient(config, env), verb, pathname, options) == Failure(NotInitialized)
    ensures var c := Init(NewClient(config, env), newId);
            var r := Send(c, verb, pathname, options);
            r.Success? && r.value.context == Context(newId, BaseUrl(config, env))
  {
  }

  /** A configured empty auth header hides `AUTH_HEADER`: an initialised client sends exactly the
      caller's headers, with no `Authorization` of its own. */
  lemma EmptyAuthSendsNone(config: Config, env: Env, newId: nat, verb: HttpMethod, pathname: string, options: RequestOptions)
    requires config.authHeader == Some("")
    ensures OutgoingHeaders(options.headers, AuthHeader(config, env))
            == (if options.headers.Some? then options.headers.value else map[])
    ensures var r := Send(Init(NewClient(config, env), newId), verb, pathname, options);
            r.Success? && r.value.headers == (if options.headers.Some? then options.headers.value else map[])
  {
  }

  /** The auth header a client is built with is the one every request carries: a truthy
      configured or environment value sets `Authorization`. */
  lemma AuthReachesSend(config: Config, env: Env, newId: nat, verb: HttpMethod, pathname: string, options: RequestOptions)
    requires IsTruthy(AuthHeader(config, env))
    ensures var r := Send(Init(NewClient(config, env), newId), verb, pathname, options);
            r.Success? && "Authorization" in r.value.headers
            && r.value.headers["Authorization"] == AuthHeader(config, env).value
  {
  }

  const SnippetLength: nat := 500

  /** The first 500 characters of a response body, which failure messages quote. */
  function TextSnippet(body: string): (r: string)
    ensures |r| == if |body| < SnippetLength then |body| else SnippetLength
    ensures r == body[..|r|]
  {
    if |body| <= SnippetLength then body else body[..SnippetLength]
  }

  /** A body within the limit is returned whole; a snippet is its own snippet. */
  lemma SnippetStable(body: string)
    ensures |body| <= SnippetLength ==> TextSnippet(body) == body
    ensures TextSnippet(TextSnippet(body)) == TextSnippet(body)
  {
  }
}

=== FILE: filename.dfy ===
/**
 * The generator's `sanitizeForFileName`: four steps applied in order to `<method>_<pathPattern>`.
 *   1. inside every `{…}` match, delete the braces and every other non-word character;
 *   2. replace every maximal run of characters outside `[a-zA-Z0-9_-]` by one `_`;
 *   3. strip leading and trailing underscores;
 *   4. keep at most the first 200 characters.
 * Underscores are in the allowed class, so an underscore next to a replaced run survives:
 * `get_/gifts/{giftId}` becomes `get__gifts_giftId`.
 */
module FileName {
  import opened Ascii
  import opened Placeholders

  /** The cap of step 4. */
  const MaxLength: nat := 200

  /** The class `[a-zA-Z0-9_-]` of step 2. */
  predicate IsFileNameChar(c: char) { IsWordChar(c) || c == '-' }

  predicate AllFileNameChars(s: string)
  {
    forall i :: 0 <= i < |s| ==> IsFileNameChar(s[i])
  }

  predicate NoneAllowed(s: string)
  {
    forall i :: 0 <= i < |s| ==> !IsFileNameChar(s[i])
  }

  predicate AllUnderscores(s: string)
  {
    forall i :: 0 <= i < |s| ==> s[i] == '_'
  }

  /** The characters that no step can create or remove, except step 4: allowed ones other than `_`. */
  function Skeleton(s: string): string
  {
    if |s| == 0 then ""
    else (if IsFileNameChar(s[0]) && s[0] != '_' then [s[0]] else "") + Skeleton(s[1..])
  }

  /** The deletion of non-word characters in step 1: keeps the word characters, in order. */
  function WordOnly(s: string): (r: string)
    ensures forall i :: 0 <= i < |r| ==> IsWordChar(r[i])
    ensures |r| <= |s|
  {
    if |s| == 0 then ""
    else (if IsWordChar(s[0]) then [s[0]] else "") + WordOnly(s[1..])
  }

  /** The replacement callback of step 1, given the name inside a match. */
  function WordOnlyOfMatch(name: string): string
  {
    WordOnly(Braced(name))
  }

  /** Step 1: each placeholder match is replaced by its word characters. */
  function StripPlaceholders(s: string): string
  {
    Fill(Tokenize(s), WordOnlyOfMatch)
  }

  /** The end of the run of disallowed characters that starts at `i`. */
  function RunEnd(s: string, i: nat): (j: nat)
    requires i <= |s|
    ensures i <= j <= |s|
    ensures forall k :: i <= k < j ==> !IsFileNameChar(s[k])
    ensures j < |s| ==> IsFileNameChar(s[j])
    decreases |s| - i
  {
    if i < |s| && !IsFileNameChar(s[i]) then RunEnd(s, i + 1) else i
  }

  /** Step 2: each maximal run of characters outside the allowed class becomes one `_`. */
  function CollapseRuns(s: string): (r: string)
    ensures AllFileNameChars(r)
    ensures |r| <= |s|
    decreases |s|
  {
    if |s| == 0 then ""
    else if IsFileNameChar(s[0]) then [s[0]] + CollapseRuns(s[1..])
    else "_" + CollapseRuns(s[RunEnd(s, 1)..])
  }

  /** Step 3, first alternative `^_+`: the index of the first character that is not `_`. */
  function LeadEnd(s: string, i: nat): (j: nat)
    requires i <= |s|
    ensures i <= j <= |s|
    ensures forall k :: i <= k < j ==> s[k] == '_'
    ensures j < |s| ==> s[j] != '_'
    decreases |s| - i
  {
    if i < |s| && s[i] == '_' then LeadEnd(s, i + 1) else i
  }

  /** Step 3, second alternative `_+$`: the index after the last character that is not `_`, but
      not below `lo`. */
  function TrailStart(s: string, lo: nat, j: nat): (r: nat)
    requires lo <= j <= |s|
    ensures lo <= r <= j
    ensures forall k :: r <= k < j ==> s[k] == '_'
    ensures r > lo ==> s[r - 1] != '_'
    decreases j
  {
    if j > lo && s[j - 1] == '_' then TrailStart(s, lo, j - 1) else j
  }

  /** Step 3: the underscores at the start and at the end are removed. */
  function TrimUnderscores(s: string): (r: string)
    ensures |r| > 0 ==> r[0] != '_' && r[|r| - 1] != '_'
    ensures exists i, j :: 0 <= i <= j <= |s| && r == s[i..j]
                           && AllUnderscores(s[..i]) && AllUnderscores(s[j..])
    ensures AllFileNameChars(s) ==> AllFileNameChars(r)
  {
    var i := LeadEnd(s, 0);
    var j := TrailStart(s, i, |s|);
    assert AllUnderscores(s[..i]) && AllUnderscores(s[j..]);
    s[i..j]
  }

  /** Step 4: at most the first 200 characters are kept. */
  function Truncate(s: string): string
  {
    if |s| <= MaxLength then s else s[..MaxLength]
  }

  /** Steps 1 to 3: the name before the cap is applied. */
  function Untruncated(input: string): string
  {
    TrimUnderscores(CollapseRuns(StripPlaceholders(input)))
  }

  /** The generator's file-name sanitizer. */
  function SanitizeForFileName(input: string): (r: string)
    ensures AllFileNameChars(r)
    ensures |r| <= MaxLength
    ensures |Untruncated(input)| > MaxLength ==> |r| == MaxLength
    ensures |r| > 0 ==> r[0] != '_'
    ensures |Untruncated(input)| <= MaxLength && |r| > 0 ==> r[|r| - 1] != '_'
  {
    var collapsed := CollapseRuns(StripPlaceholders(input));
    Truncate(TrimUnderscores(collapsed))
  }

  /** Step 2 is the identity exactly on strings made of allowed characters: a disallowed character
      never survives it. */
  lemma CollapseIdentityIff(s: string)
    ensures CollapseRuns(s) == s <==> AllFileNameChars(s)
  {
    if AllFileNameChars(s) {
      CollapseKeepsAllowed(s);
    }
  }

  lemma {:induction false} CollapseKeepsAllowed(s: string)
    requires AllFileNameChars(s)
    ensures CollapseRuns(s) == s
    decreases |s|
  {
    if |s| > 0 {
      CollapseKeepsAllowed(s[1..]);
      assert s == [s[0]] + s[1..];
    }
  }

  /** A maximal run of disallowed characters becomes exactly one underscore: the characters after
      the run are handled as if the run had been a single `_`. */
  lemma CollapseRun(run: string, rest: string)
    requires |run| > 0 && NoneAllowed(run)
    requires |rest| == 0 || IsFileNameChar(rest[0])
    ensures CollapseRuns(run + rest) == "_" + CollapseRuns(rest)
  {
    var s := run + rest;
    RunEndAt(s, 1, |run|);
    assert s[|run|..] == rest;
  }

  lemma {:induction false} RunEndAt(s: string, i: nat, j: nat)
    requires i <= j <= |s|
    requires forall k :: i <= k < j ==> !IsFileNameChar(s[k])
    requires j < |s| ==> IsFileNameChar(s[j])
    ensures RunEnd(s, i) == j
    decreases j - i
  {
    if i < j {
      RunEndAt(s, i + 1, j);
    }
  }

  /** Step 2 works piecewise: a string that ends in an allowed character can be collapsed
      separately from what follows it. */
  lemma {:induction false} CollapseSplit(a: string, b: string)
    requires |a| > 0 && IsFileNameChar(a[|a| - 1])
    ensures CollapseRuns(a + b) == CollapseRuns(a) + CollapseRuns(b)
    decreases |a|
  {
    if IsFileNameChar(a[0]) {
      if |a| == 1 {
        CollapseSplitSingle(a, b);
      } else {
        CollapseSplit(a[1..], b);
        CollapseSplitAllowed(a, b);
      }
    } else {
      var e := RunEnd(a, 1);
      assert e < |a|;
      CollapseSplit(a[e..], b);
      CollapseSplitRun(a, b, e);
    }
  }

  lemma CollapseSplitSingle(a: string, b: string)
    requires |a| == 1 && IsFileNameChar(a[0])
    ensures CollapseRuns(a + b) == CollapseRuns(a) + CollapseRuns(b)
  {
    assert (a + b)[0] == a[0] && (a + b)[1..] == b;
    assert a[1..] == "";
  }

  lemma CollapseSplitAllowed(a: string, b: string)
    requires |a| > 1 && IsFileNameChar(a[0])
    requires CollapseRuns(a[1..] + b) == CollapseRuns(a[1..]) + CollapseRuns(b)
    ensures CollapseRuns(a + b) == CollapseRuns(a) + CollapseRuns(b)
  {
    assert (a + b)[0] == a[0] && (a + b)[1..] == a[1..] + b;
  }

  lemma CollapseSplitRun(a: string, b: string, e: nat)
    requires 1 <= e < |a| && e == RunEnd(a, 1) && !IsFileNameChar(a[0])
    requires CollapseRuns(a[e..] + b) == CollapseRuns(a[e..]) + CollapseRuns(b)
    ensures CollapseRuns(a + b) == CollapseRuns(a) + CollapseRuns(b)
  {
    var s := a + b;
    assert s[0] == a[0];
    RunEndAt(s, 1, e);
    assert s[e..] == a[e..] + b;
  }

  /** The allowed characters other than `_` come through step 2 unchanged and in order: it only
      ever adds or keeps underscores. */
  lemma {:induction false} CollapseKeepsSkeleton(s: string)
    ensures Skeleton(CollapseRuns(s)) == Skeleton(s)
    decreases |s|
  {
    if |s| > 0 {
      if IsFileNameChar(s[0]) {
        CollapseKeepsSkeleton(s[1..]);
        assert ([s[0]] + CollapseRuns(s[1..]))[1..] == CollapseRuns(s[1..]);
      } else {
        var e := RunEnd(s, 1);
        CollapseKeepsSkeleton(s[e..]);
        SkeletonSkipsRun(s, 1);
        assert ("_" + CollapseRuns(s[e..]))[1..] == CollapseRuns(s[e..]);
      }
    }
  }

  lemma {:induction false} SkeletonSkipsRun(s: string, i: nat)
    requires i <= |s|
    ensures Skeleton(s[RunEnd(s, i)..]) == Skeleton(s[i..])
    decreases |s| - i
  {
    if i < |s| && !IsFileNameChar(s[i]) {
      SkeletonSkipsRun(s, i + 1);
      assert s[i..][1..] == s[i + 1..];
    }
  }

  /** Allowed text passes through step 2 untouched, underscores included, whatever follows it:
      an existing `__` is never merged into one `_`. */
  lemma KeepsAllowedPrefix(a: string, b: string)
    requires |a| > 0 && AllFileNameChars(a)
    ensures CollapseRuns(a + b) == a + CollapseRuns(b)
  {
    CollapseSplit(a, b);
    CollapseKeepsAllowed(a);
  }

  /** Step 1 changes nothing when there is no placeholder. */
  lemma StripWithoutParams(s: string)
    requires !HasPathParams(s)
    ensures StripPlaceholders(s) == s
  {
    FillWithoutParams(s, WordOnlyOfMatch);
  }

  /** Step 3 changes nothing when the ends are not underscores. */
  lemma TrimIdentity(s: string)
    requires |s| > 0 ==> s[0] != '_' && s[|s| - 1] != '_'
    ensures TrimUnderscores(s) == s
  {
  }

  /** Sanitizing twice gives the same name as sanitizing once, as long as the cap did not cut the
      first result. */
  lemma SanitizeIdempotent(input: string)
    requires |Untruncated(input)| <= MaxLength
    ensures SanitizeForFileName(SanitizeForFileName(input)) == SanitizeForFileName(input)
  {
    var r := SanitizeForFileName(input);
    assert !HasPathParams(r) by {
      forall i | 0 <= i < |r|
        ensures MatchAt(r[i..]).None?
      {
        assert IsFileNameChar(r[i]);
      }
    }
    StripWithoutParams(r);
    CollapseKeepsAllowed(r);
    TrimIdentity(r);
  }

  /** The cap can leave a trailing underscore, so the sanitizer is not idempotent in general:
      199 letters followed by `/b` is cut to 199 letters and `_`, which sanitizes to 199 letters. */
  lemma CapExposesUnderscore()
    ensures var x := seq(199, _ => 'a') + "/b";
            var r := SanitizeForFileName(x);
            |r| == MaxLength && r[MaxLength - 1] == '_'
            && SanitizeForFileName(r) != r
  {
    var a := seq(199, _ => 'a');
    assert a[0] == 'a';
    assert '{' !in a;
    CutAfterSlash(a);
    ResanitizeCut(a);
  }

  /** 199 allowed characters, a slash and one more letter: the slash becomes `_` and the cap then
      drops the letter. */
  lemma CutAfterSlash(a: string)
    requires |a| == MaxLength - 1 && AllFileNameChars(a) && a[0] != '_' && '{' !in a
    ensures SanitizeForFileName(a + "/b") == a + "_"
  {
    var x := a + "/b";
    assert '{' !in x;
    NoBraceNoParams(x);
    StripWithoutParams(x);
    CollapseKeepsAllowed("b");
    CollapseSlash(a, "b");
    var y := a + "_b";
    assert x == a + "/" + "b" && y == a + "_" + "b";
    assert CollapseRuns(x) == y;
    TrimIdentity(y);
    assert y[..MaxLength] == a + "_";
  }

  /** The same characters followed by `_` lose the underscore when sanitized again. */
  lemma ResanitizeCut(a: string)
    requires |a| == MaxLength - 1 && AllFileNameChars(a) && a[0] != '_' && '{' !in a
    ensures SanitizeForFileName(a + "_") != a + "_"
  {
    var r := a + "_";
    assert '{' !in r;
    NoBraceNoParams(r);
    StripWithoutParams(r);
    AllowedConcat(a, "_");
    CollapseKeepsAllowed(r);
    assert |Untruncated(r)| <= |r|;
    assert r[|r| - 1] == '_';
  }

  lemma {:induction false} WordOnlyAppend(a: string, b: string)
    ensures WordOnly(a + b) == WordOnly(a) + WordOnly(b)
    decreases |a|
  {
    if |a| > 0 {
      assert (a + b)[1..] == a[1..] + b;
      WordOnlyAppend(a[1..], b);
    } else {
      assert a + b == b;
    }
  }

  lemma {:induction false} WordOnlyKeepsWords(s: string)
    requires forall i :: 0 <= i < |s| ==> IsWordChar(s[i])
    ensures WordOnly(s) == s
    decreases |s|
  {
    if |s| > 0 {
      WordOnlyKeepsWords(s[1..]);
      assert s == [s[0]] + s[1..];
    }
  }

  /** Text without word characters is deleted entirely. */
  lemma {:induction false} WordOnlyDropsNonWords(s: string)
    requires forall i :: 0 <= i < |s| ==> !IsWordChar(s[i])
    ensures WordOnly(s) == ""
    decreases |s|
  {
    if |s| > 0 {
      WordOnlyDropsNonWords(s[1..]);
    }
  }

  /** Inside a match the braces go and so does every other non-word character of the name. */
  lemma WordOnlyOfMatchIsWordOnly(name: string)
    ensures WordOnlyOfMatch(name) == WordOnly(name)
  {
    WordOnlyAppend("{" + name, "}");
    WordOnlyAppend("{", name);
    WordOnlyDropsNonWords("{");
    WordOnlyDropsNonWords("}");
  }

  /** A placeholder whose name is made of word characters keeps exactly its name. */
  lemma WordOnlyOfMatchKeepsName(name: string)
    requires forall i :: 0 <= i < |name| ==> IsWordChar(name[i])
    ensures WordOnlyOfMatch(name) == name
  {
    WordOnlyAppend("{" + name, "}");
    WordOnlyAppend("{", name);
    WordOnlyKeepsWords(name);
  }

  /** A single slash between two allowed strings becomes an underscore. */
  lemma CollapseSlash(a: string, b: string)
    requires |a| > 0 && AllFileNameChars(a) && |b| > 0 && IsFileNameChar(b[0])
    ensures CollapseRuns(a + "/" + b) == a + "_" + CollapseRuns(b)
  {
    CollapseKeepsAllowed(a);
    CollapseSplit(a, "/" + b);
    CollapseRun("/", b);
    assert a + "/" + b == a + ("/" + b);
  }

  lemma AllowedConcat(a: string, b: string)
    requires AllFileNameChars(a) && AllFileNameChars(b)
    ensures AllFileNameChars(a + b)
  {
    assert forall i :: |a| <= i < |a + b| ==> (a + b)[i] == b[i - |a|];
  }

  /** A single slash between two strings of allowed characters becomes an underscore. */
  lemma CollapseOneSlash(a: string, b: string)
    requires |a| > 0 && AllFileNameChars(a)
    requires |b| > 0 && AllFileNameChars(b)
    ensures CollapseRuns(a + "/" + b) == a + "_" + b
  {
    CollapseSlash(a, b);
    CollapseKeepsAllowed(b);
  }

  lemma CollapseSlashKnown(p: string, q: string, r: string)
    requires |p| > 0 && AllFileNameChars(p)
    requires |q| > 0 && IsFileNameChar(q[0]) && CollapseRuns(q) == r
    ensures CollapseRuns(p + "/" + q) == p + "_" + r
  {
    CollapseSlash(p, q);
  }

  /** Regroupings of the concatenations below, stated once so that the solver does not have to
      rediscover sequence associativity inside larger proofs. */
  lemma ConcatShapes(m: string, a: string, b: string)
    ensures m + "_/" + a + "/" + b == (m + "_") + "/" + (a + "/" + b)
    ensures m + "_/" + a + "_" + b == (m + "_") + "/" + (a + "_" + b)
    ensures m + "__" + a + "_" + b == (m + "_") + "_" + (a + "_" + b)
  {
  }

  lemma CollapseTwoSlashes(m: string, a: string, b: string)
    requires |m| > 0 && AllFileNameChars(m)
    requires |a| > 0 && AllFileNameChars(a)
    requires |b| > 0 && AllFileNameChars(b)
    ensures CollapseRuns(m + "_/" + a + "/" + b) == m + "__" + a + "_" + b
  {
    CollapseOneSlash(a, b);
    AllowedConcat(m, "_");
    CollapseSlashKnown(m + "_", a + "/" + b, a + "_" + b);
    ConcatShapes(m, a, b);
  }

  /** Steps 3 and 4 leave a short name with no underscore at either end alone. */
  lemma FinishIdentity(r: string)
    requires |r| <= MaxLength
    requires |r| > 0 ==> r[0] != '_' && r[|r| - 1] != '_'
    ensures Truncate(TrimUnderscores(r)) == r
  {
    TrimIdentity(r);
  }

  /** The first and last characters of a `<m>__<a>_<b>` name, for the trim step. */
  lemma NameEnds(m: string, a: string, b: string)
    requires |m| > 0 && |b| > 0
    ensures var r := m + "__" + a + "_" + b; r[0] == m[0] && r[|r| - 1] == b[|b| - 1]
  {
  }

  /** Steps 2 to 4 on `<method>_/<segment>/<last>`, all three made of allowed characters. */
  lemma TwoSegmentName(m: string, a: string, b: string)
    requires |m| > 0 && AllFileNameChars(m) && m[0] != '_'
    requires |a| > 0 && AllFileNameChars(a)
    requires |b| > 0 && AllFileNameChars(b) && b[|b| - 1] != '_'
    requires |m| + |a| + |b| + 3 <= MaxLength
    ensures Truncate(TrimUnderscores(CollapseRuns(m + "_/" + a + "/" + b))) == m + "__" + a + "_" + b
  {
    CollapseTwoSlashes(m, a, b);
    NameEnds(m, a, b);
    FinishIdentity(m + "__" + a + "_" + b);
  }

  /** Step 1 on `<prefix>{<name>}` where the prefix has no brace: the prefix stays and the
      placeholder becomes the word characters of its name. */
  lemma StripTrailingPlaceholder(lit: string, n: string)
    requires '{' !in lit
    requires |n| > 0 && '}' !in n
    ensures StripPlaceholders(lit + "{" + n + "}") == lit + WordOnly(n)
  {
    OnePlaceholderTokens(lit, n);
    FillOnePlaceholder(lit, n, WordOnlyOfMatch);
    WordOnlyOfMatchIsWordOnly(n);
  }

  /** A name with a hyphen loses it: `/offers/{offer-id}` becomes `/offers/offerid` in step 1. */
  lemma HyphenatedNameExample(lit: string, n: string)
    requires lit == "/offers/" && n == "offer-id"
    ensures StripPlaceholders(lit + "{" + n + "}") == "/offers/offerid"
  {
    StripTrailingPlaceholder(lit, n);
    assert n == "offer" + "-" + "id";
    WordOnlyAppend("offer" + "-", "id");
    WordOnlyAppend("offer", "-");
    WordOnlyKeepsWords("offer");
    WordOnlyKeepsWords("id");
    assert WordOnly("-") == "";
  }

  /** A prefix built from allowed characters and slashes holds no `{`. */
  lemma NoBraceInPrefix(m: string, a: string)
    requires AllFileNameChars(m) && AllFileNameChars(a)
    ensures '{' !in m + "_/" + a + "/"
  {
    var lit := m + "_/" + a + "/";
    assert forall i :: 0 <= i < |lit| ==> IsFileNameChar(lit[i]) || lit[i] == '/';
  }

  /** `<method>_/<segment>/{<name>}` with word-character parts is named
      `<method>__<segment>_<name>`: both underscores before the segment survive. */
  lemma PlaceholderPathName(m: string, a: string, n: string)
    requires |m| > 0 && AllFileNameChars(m) && m[0] != '_'
    requires |a| > 0 && AllFileNameChars(a)
    requires |n| > 0 && (forall i :: 0 <= i < |n| ==> IsWordChar(n[i])) && n[|n| - 1] != '_'
    requires |m| + |a| + |n| + 3 <= MaxLength
    ensures SanitizeForFileName(m + "_/" + a + "/{" + n + "}") == m + "__" + a + "_" + n
  {
    NoBraceInPrefix(m, a);
    StripTrailingPlaceholder(m + "_/" + a + "/", n);
    WordOnlyKeepsWords(n);
    assert m + "_/" + a + "/{" + n + "}" == (m + "_/" + a + "/") + "{" + n + "}";
    assert (m + "_/" + a + "/") + n == m + "_/" + a + "/" + n;
    TwoSegmentName(m, a, n);
  }

  /** The facts `PlaceholderPathName` needs about the parts of `get_/gifts/{giftId}`. They are
      stated on named strings, because the solver handles those much more cheaply than the literal
      inside `GiftIdExample`. */
  lemma GiftIdParts(m: string, a: string, n: string)
    requires m == "get" && a == "gifts" && n == "giftId"
    ensures |m| > 0 && AllFileNameChars(m) && m[0] != '_'
    ensures |a| > 0 && AllFileNameChars(a)
    ensures |n| > 0 && (forall i :: 0 <= i < |n| ==> IsWordChar(n[i])) && n[|n| - 1] != '_'
    ensures |m| + |a| + |n| + 3 <= MaxLength
    ensures m + "__" + a + "_" + n == "get__gifts_giftId"
    ensures m + "_/" + a + "/{" + n + "}" == "get_/gifts/{giftId}"
  {
  }

  /** The name of the generated test for `get /gifts/{giftId}`. */
  lemma GiftIdExample(input: string)
    requires input == "get_/gifts/{giftId}"
    ensures SanitizeForFileName(input) == "get__gifts_giftId"
  {
    var m, a, n := "get", "gifts", "giftId";
    GiftIdParts(m, a, n);
    PlaceholderPathName(m, a, n);
  }

  /** The same facts for the parts of `get_/customers/{customerId}`. */
  lemma CustomerIdParts(m: string, a: string, n: string)
    requires m == "get" && a == "customers" && n == "customerId"
    ensures |m| > 0 && AllFileNameChars(m) && m[0] != '_'
    ensures |a| > 0 && AllFileNameChars(a)
    ensures |n| > 0 && (forall i :: 0 <= i < |n| ==> IsWordChar(n[i])) && n[|n| - 1] != '_'
    ensures |m| + |a| + |n| + 3 <= MaxLength
    ensures m + "__" + a + "_" + n == "get__customers_customerId"
    ensures m + "_/" + a + "/{" + n + "}" == "get_/customers/{customerId}"
  {
  }

  /** `get /customers/{customerId}` keeps the underscore after the method and the one the slash
      became: `get__customers_customerId`, not `get_customers_customerId`. */
  lemma CustomerIdExample(input: string)
    requires input == "get_/customers/{customerId}"
    ensures SanitizeForFileName(input) == "get__customers_customerId"
    ensures SanitizeForFileName(input) != "get_customers_customerId"
  {
    var m, a, n := "get", "customers", "customerId";
    CustomerIdParts(m, a, n);
    PlaceholderPathName(m, a, n);
  }

  /** Names can collide: `/<a>/<b>` and `/<a>_<b>` give the same file name, so the second
      generated file overwrites the first. */
  lemma NameCollision(m: string, a: string, b: string)
    requires |m| > 0 && AllFileNameChars(m) && m[0] != '_'
    requires |a| > 0 && AllFileNameChars(a)
    requires |b| > 0 && AllFileNameChars(b) && b[|b| - 1] != '_'
    requires |m| + |a| + |b| + 3 <= MaxLength
    ensures m + "_/" + a + "/" + b != m + "_/" + a + "_" + b
    ensures SanitizeForFileName(m + "_/" + a + "/" + b) == SanitizeForFileName(m + "_/" + a + "_" + b)
  {
    var x := m + "_/" + a + "/" + b;
    var y := m + "_/" + a + "_" + b;
    assert x[|m| + 2 + |a|] == '/' && y[|m| + 2 + |a|] == '_';
    NoBraceInPrefix(m, a);
    NoBraceInPrefix(m, a + "_" + b);
    assert '{' !in x;
    assert '{' !in y;
    NoBraceNoParams(x);
    NoBraceNoParams(y);
    StripWithoutParams(x);
    StripWithoutParams(y);
    TwoSegmentName(m, a, b);
    AllowedConcat(m, "_");
    AllowedConcat(a, "_");
    AllowedConcat(a + "_", b);
    CollapseOneSlash(m + "_", a + "_" + b);
    ConcatShapes(m, a, b);
    NameEnds(m, a, b);
    FinishIdentity(m + "__" + a + "_" + b);
  }
}

=== FILE: generator.dfy ===
/**
 * The smoke-test generator's walk over a parsed OpenAPI document (`main` in the generator script,
 * without its file-system and YAML work): every path key in document order, and within a path the
 * seven HTTP methods in a fixed order, one generated test file per present, truthy operation.
 */
module Generator {
  import opened Wrappers
  import opened Ascii
  import opened Placeholders
  import opened FileName
  import opened TestTitle
  import opened PathTemplate
  import opened Http

  /** The parts of an operation object the generator reads. `summary` is `None` when absent;
      `security` holds the JSON text of a truthy `security` value and is `None` otherwise. */
  datatype Operation = Operation(summary: Option<string>, security: Option<string>)

  /** A path item. A missing key is an absent method; a key mapped to `None` holds a falsy value. */
  type PathItem = map<HttpMethod, Option<Operation>>

  datatype Server = Server(url: string)

  /** The parsed document. `paths` keeps the keys of the `paths` object in document order, and an
      entry whose value is falsy maps to `None`. */
  datatype Schema = Schema(servers: Option<seq<Server>>, paths: Option<seq<(string, Option<PathItem>)>>)

  type Paths = seq<(string, Option<PathItem>)>

  /** The document's paths, or none when it has no paths object. */
  function PathsOf(schema: Schema): Paths
  {
    if schema.paths.Some? then schema.paths.value else []
  }

  /** `pathItem[method]` is truthy, where `pathItem` is `paths[pathPattern] || {}`. */
  predicate IsPresent(item: Option<PathItem>, m: HttpMethod)
  {
    item.Some? && m in item.value && item.value[m].Some?
  }

  /** The methods of `ms` that a path item defines, in the order of `ms`. */
  function Present(item: Option<PathItem>, ms: seq<HttpMethod>): (r: seq<HttpMethod>)
    ensures forall m :: m in r <==> m in ms && IsPresent(item, m)
    ensures |r| <= |ms|
  {
    if |ms| == 0 then []
    else
      var last := ms[|ms| - 1];
      Present(item, ms[..|ms| - 1]) + (if IsPresent(item, last) then [last] else [])
  }

  /** The methods a path item contributes, in the generator's order. */
  function MethodsOf(item: Option<PathItem>): seq<HttpMethod>
  {
    Present(item, MethodOrder)
  }

  /** A place in the walk: the index of a path key and a method. */
  datatype Pos = Pos(index: nat, verb: HttpMethod)

  /** The walk reaches `p` before `q`. */
  predicate Before(p: Pos, q: Pos)
  {
    p.index < q.index || (p.index == q.index && Rank(p.verb) < Rank(q.verb))
  }

  predicate StrictlyOrdered(ps: seq<Pos>)
  {
    forall i, j :: 0 <= i < j < |ps| ==> Before(ps[i], ps[j])
  }

  /** A test is generated for the method at this place. */
  predicate Emits(paths: Paths, p: Pos)
  {
    p.index < |paths| && IsPresent(paths[p.index].1, p.verb)
  }

  /** The places of one path item, all at path index `i`. */
  function AtPath(i: nat, ms: seq<HttpMethod>): (r: seq<Pos>)
    ensures |r| == |ms|
    ensures forall k :: 0 <= k < |r| ==> r[k] == Pos(i, ms[k])
  {
    seq(|ms|, k requires 0 <= k < |ms| => Pos(i, ms[k]))
  }

  lemma RankOf(k: nat)
    requires k < |MethodOrder|
    ensures Rank(MethodOrder[k]) == k
  {
  }

  /** `Present` keeps the order of `MethodOrder`. */
  lemma {:induction false} PresentOrdered(item: Option<PathItem>, n: nat)
    requires n <= |MethodOrder|
    ensures forall a, b :: 0 <= a < b < |Present(item, MethodOrder[..n])| ==>
              Rank(Present(item, MethodOrder[..n])[a]) < Rank(Present(item, MethodOrder[..n])[b])
    ensures forall m :: m in Present(item, MethodOrder[..n]) ==> Rank(m) < n
  {
    if n > 0 {
      var ms := MethodOrder[..n];
      assert ms[..n - 1] == MethodOrder[..n - 1];
      PresentOrdered(item, n - 1);
      RankOf(n - 1);
      var prev := Present(item, MethodOrder[..n - 1]);
      var r := Present(item, ms);
      assert r == prev + (if IsPresent(item, ms[n - 1]) then [ms[n - 1]] else []);
      forall a, b | 0 <= a < b < |r| ensures Rank(r[a]) < Rank(r[b]) {
        if b < |prev| {
          assert r[a] == prev[a] && r[b] == prev[b];
        } else {
          assert r[a] == prev[a] && prev[a] in prev;
          assert r[b] == MethodOrder[n - 1];
        }
      }
    }
  }

  /** The places of the first `n` path keys where a test is generated, in walk order. */
  function PositionsUpTo(paths: Paths, n: nat): (r: seq<Pos>)
    requires n <= |paths|
    ensures StrictlyOrdered(r)
    ensures forall p :: p in r <==> Emits(paths, p) && p.index < n
    decreases n
  {
    if n == 0 then []
    else
      var prev := PositionsUpTo(paths, n - 1);
      var here := AtPath(n - 1, MethodsOf(paths[n - 1].1));
      PathPlaces(paths, n - 1);
      OrderedAppend(prev, here, n - 1);
      prev + here
  }

  /** The places of one path item are exactly its generating places, in method order. */
  lemma PathPlaces(paths: Paths, i: nat)
    requires i < |paths|
    ensures var here := AtPath(i, MethodsOf(paths[i].1));
            StrictlyOrdered(here)
            && (forall p :: p in here <==> Emits(paths, p) && p.index == i)
  {
    var item := paths[i].1;
    var ms := MethodsOf(item);
    var here := AtPath(i, ms);
    assert MethodOrder[..|MethodOrder|] == MethodOrder;
    PresentOrdered(item, |MethodOrder|);
    assert ms == Present(item, MethodOrder[..|MethodOrder|]);
    forall a, b | 0 <= a < b < |here| ensures Before(here[a], here[b]) {
      assert Rank(ms[a]) < Rank(ms[b]);
    }
    forall p | p in here ensures Emits(paths, p) && p.index == i {
      var k :| 0 <= k < |here| && here[k] == p;
      assert p.verb == ms[k];
    }
    forall p | Emits(paths, p) && p.index == i ensures p in here {
      assert MethodOrder[Rank(p.verb)] == p.verb;
      assert p.verb in ms;
      var k :| 0 <= k < |ms| && ms[k] == p.verb;
      assert here[k] == p;
    }
  }

  lemma OrderedAppend(prev: seq<Pos>, here: seq<Pos>, i: nat)
    requires StrictlyOrdered(prev) && StrictlyOrdered(here)
    requires forall p :: p in prev ==> p.index < i
    requires forall p :: p in here ==> p.index == i
    ensures StrictlyOrdered(prev + here)
  {
    var r := prev + here;
    forall a, b | 0 <= a < b < |r| ensures Before(r[a], r[b]) {
      if b < |prev| {
        assert r[a] == prev[a] && r[b] == prev[b];
      } else if a < |prev| {
        assert r[a] in prev && r[b] in here;
      } else {
        assert r[a] == here[a - |prev|] && r[b] == here[b - |prev|];
      }
    }
  }

  /** Every place where a test is generated, in walk order. */
  function Positions(schema: Schema): seq<Pos>
  {
    var paths := PathsOf(schema);
    PositionsUpTo(paths, |paths|)
  }

  /** The walk is the only ordering of the generating places: any strictly ordered listing of
      exactly those places is the walk. */
  lemma PositionsUnique(schema: Schema, other: seq<Pos>)
    requires StrictlyOrdered(other)
    requires forall p :: p in other <==> Emits(PathsOf(schema), p)
    ensures other == Positions(schema)
  {
    var paths := PathsOf(schema);
    var r := Positions(schema);
    forall p ensures p in r <==> p in other {
    }
    OrderedUnique(r, other);
  }

  lemma BeforeIrreflexive(p: Pos, q: Pos)
    ensures Before(p, q) ==> !Before(q, p) && p != q
  {
  }

  /** Two strictly ordered sequences with the same elements are the same sequence. */
  lemma {:induction false} OrderedUnique(a: seq<Pos>, b: seq<Pos>)
    requires StrictlyOrdered(a) && StrictlyOrdered(b)
    requires forall p :: p in a <==> p in b
    ensures a == b
    decreases |a|
  {
    if |a| > 0 {
      assert a[0] in b;
    }
    if |b| > 0 {
      assert b[0] in a;
    }
    if |a| > 0 {
      var x, y := a[0], b[0];
      assert x in a && x in b;
      assert y in b && y in a;
      var i :| 0 <= i < |b| && b[i] == x;
      var j :| 0 <= j < |a| && a[j] == y;
      BeforeIrreflexive(x, y);
      if i != 0 && j != 0 {
        assert false;
      }
      assert x == y;
      forall p ensures p in a[1..] <==> p in b[1..] {
        BeforeIrreflexive(x, p);
        if p in a[1..] {
          var k :| 0 <= k < |a[1..]| && a[1..][k] == p;
          assert a[k + 1] == p && a[k + 1] in a;
          var l :| 0 <= l < |b| && b[l] == p;
          assert l != 0;
          assert b[1..][l - 1] == p;
        }
        if p in b[1..] {
          var k :| 0 <= k < |b[1..]| && b[1..][k] == p;
          assert b[k + 1] == p && b[k + 1] in b;
          var l :| 0 <= l < |a| && a[l] == p;
          assert l != 0;
          assert a[1..][l - 1] == p;
        }
      }
      OrderedUnique(a[1..], b[1..]);
      assert a == [a[0]] + a[1..];
      assert b == [b[0]] + b[1..];
    }
  }

  /** The generating places, as a set. */
  function EmittingPlaces(schema: Schema): set<Pos>
  {
    var paths := PathsOf(schema);
    set i, m | 0 <= i < |paths| && m in MethodOrder && IsPresent(paths[i].1, m) :: Pos(i, m)
  }

  /** The walk visits each generating place once: as many tests as truthy operations. */
  lemma CountIsPlaces(schema: Schema)
    ensures |Positions(schema)| == |EmittingPlaces(schema)|
  {
    var paths := PathsOf(schema);
    var r := Positions(schema);
    forall p ensures p in r <==> p in EmittingPlaces(schema) {
      if p in r {
        assert Emits(paths, p);
        assert p.verb == MethodOrder[Rank(p.verb)];
      }
    }
    DistinctCard(r);
    assert (set p | p in r) == EmittingPlaces(schema);
  }

  lemma {:induction false} DistinctCard(ps: seq<Pos>)
    requires StrictlyOrdered(ps)
    ensures |set p | p in ps| == |ps|
    decreases |ps|
  {
    if |ps| > 0 {
      var t := ps[1..];
      DistinctCard(t);
      assert (set p | p in ps) == {ps[0]} + (set p | p in t);
      forall k | 0 <= k < |t| ensures t[k] != ps[0] {
        assert Before(ps[0], ps[k + 1]);
        BeforeIrreflexive(ps[0], ps[k + 1]);
      }
    }
  }

  /** The slots of one generated test file. */
  datatype RenderedTest = RenderedTest(
    title: string,          // the title built from the method, the pattern and the summary
    testName: string,       // the title as it appears between the quotes of test('…')
    requestMethod: string,  // the member called on Playwright's request fixture
    urlPath: UrlPathExpr,   // the expression assigned to urlPath
    securityComment: string)

  datatype GeneratedFile = GeneratedFile(baseName: string, fileName: string, test: RenderedTest)

  /** The text appended to the `TODO` comment line above the request when the operation carries
      security requirements, holding them as JSON text. */
  function SecurityComment(op: Operation): string
  {
    if op.security.Some? then " // security: " + op.security.value else ""
  }

  function Render(pattern: string, m: HttpMethod, op: Operation): RenderedTest
  {
    var title := BuildTestTitle(MethodName(m), pattern, op.summary);
    RenderedTest(title, EscapeQuotes(title), MethodName(m), ResolvedPathExpr(pattern), SecurityComment(op))
  }

  /** The file generated for a method of a path: its name and its slots. */
  function FileFor(pattern: string, m: HttpMethod, op: Operation): (f: GeneratedFile)
    ensures f.baseName == SanitizeForFileName(MethodName(m) + "_" + pattern)
    ensures f.fileName == f.baseName + ".spec.ts"
    ensures AllFileNameChars(f.baseName) && |f.baseName| <= MaxLength
    ensures f.test.title == BuildTestTitle(MethodName(m), pattern, op.summary)
    ensures f.test.testName == EscapeQuotes(f.test.title)
    ensures f.test.requestMethod == MethodName(m)
    ensures f.test.urlPath == ResolvedPathExpr(pattern)
    ensures f.test.urlPath.Quoted? <==> !HasPathParams(pattern)
    ensures f.test.securityComment == "" <==> op.security.None?
  {
    var base := SanitizeForFileName(MethodName(m) + "_" + pattern);
    GeneratedFile(base, base + ".spec.ts", Render(pattern, m, op))
  }

  /** The file generated for `get` on `/gifts/{giftId}` with summary `Get gift` carries the name,
      test name, request method and `urlPath` expression of the shipped `get__gifts_giftId` test. */
  lemma GiftIdFile(pattern: string, op: Operation)
    requires pattern == "/gifts/{giftId}" && op == Operation(Some("Get gift"), None)
    ensures var f := FileFor(pattern, Get, op);
            f.fileName == "get__gifts_giftId.spec.ts"
            && f.test.testName == "GET /gifts/{giftId} - Get gift"
            && f.test.requestMethod == "get"
            && Show(f.test.urlPath)
               == "`" + "/gifts/" + "${process.env[\"PATH_GIFTID\"] || \"REPLACE_GIFTID\"}" + "`"
            && f.test.securityComment == ""
  {
    var f := FileFor(pattern, Get, op);
    GiftIdFileName(pattern, f.baseName);
    GiftIdTestName(pattern, op.summary, f.test.title);
    GiftIdUrlPath(pattern, f.test.urlPath);
  }

  lemma GiftIdFileName(pattern: string, base: string)
    requires pattern == "/gifts/{giftId}" && base == SanitizeForFileName(MethodName(Get) + "_" + pattern)
    ensures base + ".spec.ts" == "get__gifts_giftId.spec.ts"
  {
    var m := MethodName(Get);
    assert m == "get";
    assert m + "_" + pattern == "get_/gifts/{giftId}";
    GiftIdExample(m + "_" + pattern);
  }

  lemma GiftIdTestName(pattern: string, summary: Option<string>, title: string)
    requires pattern == "/gifts/{giftId}" && summary == Some("Get gift")
    requires title == BuildTestTitle(MethodName(Get), pattern, summary)
    ensures EscapeQuotes(title) == "GET /gifts/{giftId} - Get gift"
  {
    GetTitle(MethodName(Get), pattern, summary);
    EscapeWithoutQuotes(title);
  }

  lemma GiftIdUrlPath(pattern: string, e: UrlPathExpr)
    requires pattern == "/gifts/{giftId}" && e == ResolvedPathExpr(pattern)
    ensures Show(e) == "`" + "/gifts/" + "${process.env[\"PATH_GIFTID\"] || \"REPLACE_GIFTID\"}" + "`"
  {
    assert pattern == "/gifts/" + "{" + "giftId" + "}";
    GiftIdShow("/gifts/", "giftId");
  }

  lemma GetTitle(m: string, pattern: string, summary: Option<string>)
    requires m == "get" && pattern == "/gifts/{giftId}" && summary == Some("Get gift")
    ensures BuildTestTitle(m, pattern, summary) == "GET /gifts/{giftId} - Get gift"
    ensures '\'' !in BuildTestTitle(m, pattern, summary)
  {
    assert Upper(m) == "GET";
  }

  /** The file for a generating place. */
  function FileAt(paths: Paths, p: Pos): GeneratedFile
    requires Emits(paths, p)
  {
    var item: Option<PathItem> := paths[p.index].1;
    FileFor(paths[p.index].0, p.verb, item.value[p.verb].value)
  }

  /** The generated files, in the order they are written. */
  function Files(schema: Schema): seq<GeneratedFile>
  {
    var paths := PathsOf(schema);
    var ps := Positions(schema);
    seq(|ps|, k requires 0 <= k < |ps| => FileAt(paths, ps[k]))
  }

  /** The inner loop of `main` for the path at index `i`: the places of its truthy methods. */
  method WalkPath(paths: Paths, i: nat) returns (here: seq<Pos>)
    requires i < |paths|
    ensures here == AtPath(i, MethodsOf(paths[i].1))
  {
    var item: Option<PathItem> := paths[i].1;
    here := [];
    var k := 0;
    while k < |MethodOrder|
      invariant 0 <= k <= |MethodOrder|
      invariant here == AtPath(i, Present(item, MethodOrder[..k]))
    {
      var m := MethodOrder[k];
      assert MethodOrder[..k + 1][..k] == MethodOrder[..k];
      if IsPresent(item, m) {
        here := here + [Pos(i, m)];
      }
      k := k + 1;
    }
    assert MethodOrder[..|MethodOrder|] == MethodOrder;
  }

  /** The loop of `main`: the files it writes, in order, and the count it reports. */
  method Generate(schema: Schema) returns (files: seq<GeneratedFile>, generatedCount: nat)
    ensures files == Files(schema)
    ensures generatedCount == |files| == |EmittingPlaces(schema)|
  {
    var paths := PathsOf(schema);
    var emitted: seq<Pos> := [];
    generatedCount := 0;
    var i := 0;
    while i < |paths|
      invariant 0 <= i <= |paths|
      invariant emitted == PositionsUpTo(paths, i)
      invariant generatedCount == |emitted|
    {
      var here := WalkPath(paths, i);
      emitted := emitted + here;
      generatedCount := generatedCount + |here|;
      i := i + 1;
    }
    files := seq(|emitted|, k requires 0 <= k < |emitted| => FileAt(paths, emitted[k]));
    CountIsPlaces(schema);
  }

  /** Path keys in document order, methods in fixed order: `/a` with `get`, then `/b` with `post`
      and `get`, yields `get /a`, `get /b`, `post /b`. */
  lemma WalkExample(op: Operation, schema: Schema)
    requires schema.paths == Some([("/a", Some(map[Get := Some(op)])),
                                   ("/b", Some(map[Post := Some(op), Get := Some(op)]))])
    ensures Positions(schema) == [Pos(0, Get), Pos(1, Get), Pos(1, Post)]
  {
    var ex := [Pos(0, Get), Pos(1, Get), Pos(1, Post)];
    var paths := PathsOf(schema);
    forall p ensures p in ex <==> Emits(paths, p) {
      if Emits(paths, p) {
        assert p.index == 0 || p.index == 1;
      }
    }
    PositionsUnique(schema, ex);
  }

  /** `getDefaultServerUrl`: the first server's URL, when there is a server. */
  function DefaultServerUrl(schema: Schema): (r: Option<string>)
    ensures r.Some? <==> schema.servers.Some? && |schema.servers.value| > 0
    ensures r.Some? ==> Server(r.value) == schema.servers.value[0]
  {
    if schema.servers.Some? && |schema.servers.value| > 0 then Some(schema.servers.value[0].url) else None
  }

  /** Listing further servers never changes the default. */
  lemma DefaultServerStable(s: seq<Server>, more: seq<Server>, paths: Option<Paths>)
    requires |s| > 0
    ensures DefaultServerUrl(Schema(Some(s + more), paths)) == DefaultServerUrl(Schema(Some(s), paths))
  {
    assert (s + more)[0] == s[0];
  }

  const NoteHead: string := "// Auto-generated API tests\n// Base URL precedence: BASE_URL > PW_BASE_URL > schema default ("

  /** The text of `_README.generated.ts`; the default URL falls back to `n/a` only when missing. */
  function ReadmeNote(schema: Schema): (note: string)
    ensures |NoteHead| + 2 <= |note|
    ensures var shown := note[|NoteHead|..|note| - 2];
            note[..|NoteHead|] == NoteHead && note[|note| - 2..] == ")\n"
            && (DefaultServerUrl(schema).Some? ==> shown == DefaultServerUrl(schema).value)
            && (DefaultServerUrl(schema).None? ==> shown == "n/a")
  {
    var shown := match DefaultServerUrl(schema) case Some(u) => u case None => "n/a";
    NoteHead + shown + ")\n"
  }
}

=== FILE: http.dfy ===
/** The request methods a path item can define, and their spellings. */
module Http {
  datatype HttpMethod = Get | Post | Put | Patch | Delete | Head | Options

  /** The order in which the generator visits the methods of a path item. */
  const MethodOrder: seq<HttpMethod> := [Get, Post, Put, Patch, Delete, Head, Options]

  /** The position of a method in `MethodOrder`. */
  function Rank(m: HttpMethod): (r: nat)
    ensures r < |MethodOrder| && MethodOrder[r] == m
  {
    match m
    case Get => 0
    case Post => 1
    case Put => 2
    case Patch => 3
    case Delete => 4
    case Head => 5
    case Options => 6
  }

  /** The lower-case key of a method in a path item, also the Playwright request method. */
  function MethodName(m: HttpMethod): string
  {
    match m
    case Get => "get"
    case Post => "post"
    case Put => "put"
    case Patch => "patch"
    case Delete => "delete"
    case Head => "head"
    case Options => "options"
  }

  /** The upper-case name the API client passes to `fetch`. */
  function WireName(m: HttpMethod): string
  {
    match m
    case Get => "GET"
    case Post => "POST"
    case Put => "PUT"
    case Patch => "PATCH"
    case Delete => "DELETE"
    case Head => "HEAD"
    case Options => "OPTIONS"
  }
}

=== FILE: pathtemplate.dfy ===
/**
 * The `urlPath` expression the generator writes into each test (`resolvedPathExpr`). A pattern
 * with no placeholder is emitted as a single-quoted literal. Otherwise it is emitted as a backtick
 * template in which every `{p}` reads `process.env["PATH_<P>"]` at run time and falls back to the
 * literal `REPLACE_<P>` when that variable is unset or empty (`<P>` is `p` upper-cased).
 *
 * The expression is kept structured: `Show` gives its text and `Eval` its value for a given
 * environment, which is when the substitution actually happens.
 */
module PathTemplate {
  import opened Ascii
  import opened Placeholders
  import opened TestTitle

  /** A generated `urlPath` expression. */
  datatype UrlPathExpr =
    | Quoted(text: string)           // '<pattern>'
    | Template(pieces: seq<Token>)   // `…${process.env["PATH_<P>"] || "REPLACE_<P>"}…`

  /** The literal a placeholder falls back to. */
  function FallbackName(name: string): string
  {
    "REPLACE_" + Upper(name)
  }

  /** The generator's choice of expression for a path pattern. */
  function ResolvedPathExpr(pattern: string): (e: UrlPathExpr)
    ensures e.Quoted? <==> !HasPathParams(pattern)
    ensures e.Quoted? ==> e.text == pattern
    ensures e.Template? ==> Fill(e.pieces, Braced) == pattern && |ParamNames(e.pieces)| > 0
  {
    if HasPathParams(pattern) then
      HasPathParamsIff(pattern);
      TokenizeRoundTrip(pattern);
      Template(Tokenize(pattern))
    else
      Quoted(pattern)
  }

  /** The text of one interpolation, `${process.env["PATH_<P>"] || "REPLACE_<P>"}`. */
  function Interpolation(name: string): string
  {
    "${process.env[\"" + EnvVarName(name) + "\"] || \"" + FallbackName(name) + "\"}"
  }

  /** The source text of the expression, as it appears after `const urlPath = `. */
  function Show(e: UrlPathExpr): string
  {
    match e
    case Quoted(t) => "'" + t + "'"
    case Template(ts) => "`" + Fill(ts, Interpolation) + "`"
  }

  /** The run-time value of one interpolation: the variable when it is set and non-empty, and
      otherwise the fallback. */
  function EnvLookup(env: map<string, string>): string -> string
  {
    (name: string) =>
      var v := EnvVarName(name);
      if v in env && env[v] != "" then env[v] else FallbackName(name)
  }

  /** The string the expression evaluates to when the test runs with environment `env`. For the
      template form this is defined as the substitution itself, which is what the emitted text
      means when it holds no escape or `${` of its own; it is not read off the text `Show` emits. */
  function Eval(e: UrlPathExpr, env: map<string, string>): string
  {
    match e
    case Quoted(t) => t
    case Template(ts) => Fill(ts, EnvLookup(env))
  }

  /** Text that a single-quoted JavaScript literal reads as itself: nothing ends it early, escapes
      a character or breaks the line. */
  predicate QuotedSafe(p: string)
  {
    '\'' !in p && '\\' !in p && '\n' !in p && '\r' !in p
  }

  /** A placeholder name that can stand between the double quotes of `"PATH_<P>"` and
      `"REPLACE_<P>"` as itself. */
  predicate NameSafe(n: string)
  {
    '"' !in n && '\\' !in n && '\n' !in n && '\r' !in n
  }

  /** Template pieces whose literal text a JavaScript template reads as itself: no escape, no
      closing backtick, no carriage return (a template turns it into a line feed), and no `$`
      directly before a literal `{`, which would open a substitution. */
  predicate TemplateSafe(ts: seq<Token>)
  {
    forall k :: 0 <= k < |ts| ==>
      if ts[k].Lit? then
        ts[k].c != '\\' && ts[k].c != '`' && ts[k].c != '\r'
        && (ts[k].c == '$' && k + 1 < |ts| ==> ts[k + 1] != Lit('{'))
      else NameSafe(ts[k].name)
  }

  /** The patterns whose emitted expression means what `Eval` reads from it. The generator pastes
      the pattern into the emitted code without escaping, so for other patterns the expression is
      either not valid JavaScript or denotes a different string. */
  predicate SafePattern(p: string)
  {
    if HasPathParams(p) then TemplateSafe(Tokenize(p)) else QuotedSafe(p)
  }

  /** A prefix without `{` that a template reads as itself. */
  predicate SafePrefix(a: string)
  {
    '{' !in a && '\\' !in a && '`' !in a && '\r' !in a
  }

  /** For a safe pattern, whichever form the generator picks, the test requests the pattern with
      each placeholder replaced by its environment value or fallback, and every literal character
      kept in place. */
  lemma EvalIsSubstitution(pattern: string, env: map<string, string>)
    requires SafePattern(pattern)
    ensures Eval(ResolvedPathExpr(pattern), env) == Fill(Tokenize(pattern), EnvLookup(env))
  {
    if !HasPathParams(pattern) {
      FillWithoutParams(pattern, EnvLookup(env));
    }
  }

  /** The quoted form of a safe pattern is a well-formed single-quoted literal that denotes exactly
      the pattern. */
  lemma QuotedReadsPattern(p: string)
    requires !HasPathParams(p) && SafePattern(p)
    ensures ResolvedPathExpr(p) == Quoted(p)
    ensures IsLiteralBody(p) && Unescape(p) == p
  {
    EscapeWithoutQuotes(p);
    EscapeRoundTrip(p);
  }

  /** A quote is a legal path character, but the quoted form does not escape it: `/o'neil` is
      emitted as `'/o'neil'`, which ends the literal after `/o`. */
  lemma ApostropheBreaksQuoted(p: string)
    requires p == "/o'neil"
    ensures ResolvedPathExpr(p) == Quoted(p)
    ensures !IsLiteralBody(p)
  {
    assert '{' !in p;
    NoBraceNoParams(p);
    assert p[2..] == "'neil";
    assert !IsLiteralBody(p[2..]);
  }

  /** A placeholder is never replaced by nothing: an unset or empty variable gives `REPLACE_<P>`,
      so no path segment silently disappears. */
  lemma EnvLookupNeverEmpty(env: map<string, string>, name: string)
    ensures EnvLookup(env)(name) != ""
  {
    assert |FallbackName(name)| >= |"REPLACE_"|;
  }

  /** `/passes` has no placeholder and is emitted quoted, as in the generated `get__passes` test. */
  lemma PassesExample(pattern: string)
    requires pattern == "/passes"
    ensures Show(ResolvedPathExpr(pattern)) == "'/passes'"
  {
    NoBraceNoParams(pattern);
  }

  /** `<prefix>{<n>}` is a safe pattern when the prefix and the name are. */
  lemma OnePlaceholderSafe(a: string, n: string)
    requires SafePrefix(a) && |n| > 0 && '}' !in n && NameSafe(n)
    ensures SafePattern(a + "{" + n + "}")
  {
    OnePlaceholderTokens(a, n);
    var ts := Tokenize(a + "{" + n + "}");
    forall k | 0 <= k < |ts|
      ensures if ts[k].Lit? then
                ts[k].c != '\\' && ts[k].c != '`' && ts[k].c != '\r'
                && (ts[k].c == '$' && k + 1 < |ts| ==> ts[k + 1] != Lit('{'))
              else NameSafe(ts[k].name)
    {
      if k < |a| {
        assert ts[k] == Lit(a[k]) && a[k] in a;
        if k + 1 < |a| {
          assert ts[k + 1] == Lit(a[k + 1]) && a[k + 1] in a;
        }
      }
    }
  }

  lemma ShowTemplate(p: string)
    requires HasPathParams(p)
    ensures Show(ResolvedPathExpr(p)) == "`" + Fill(Tokenize(p), Interpolation) + "`"
  {
  }

  /** `<prefix>{<name>}` is emitted as a template that keeps the prefix and reads `PATH_<NAME>`. */
  lemma OnePlaceholderShow(a: string, n: string)
    requires '{' !in a && |n| > 0 && '}' !in n
    ensures Show(ResolvedPathExpr(a + "{" + n + "}")) == "`" + a + Interpolation(n) + "`"
  {
    OnePlaceholderTokens(a, n);
    ShowTemplate(a + "{" + n + "}");
    FillOnePlaceholder(a, n, Interpolation);
  }

  /** The expression of the generated `get__gifts_giftId` test. */
  lemma GiftIdShow(a: string, n: string)
    requires a == "/gifts/" && n == "giftId"
    ensures Show(ResolvedPathExpr(a + "{" + n + "}"))
            == "`" + "/gifts/" + "${process.env[\"PATH_GIFTID\"] || \"REPLACE_GIFTID\"}" + "`"
  {
    GiftIdInterpolation(n);
    OnePlaceholderShow(a, n);
  }

  lemma GiftIdInterpolation(n: string)
    requires n == "giftId"
    ensures Interpolation(n) == "${process.env[\"PATH_GIFTID\"] || \"REPLACE_GIFTID\"}"
  {
    assert Upper(n) == "GIFTID";
  }
}

=== FILE: placeholders.dfy ===
/**
 * The scanner behind the regular expression `\{([^}]+)\}` with the global flag, which both the
 * generator and the API client use to find `{name}` placeholders in a path pattern.
 *
 * At a position that holds `{`, the expression matches exactly when the first `}` after it is at
 * least two characters further on: `[^}]+` is greedy, admits `{`, and needs one character. A global
 * replace resumes after each match and otherwise moves on by one character, so a pattern is a
 * sequence of tokens: literal characters and matched placeholders.
 */
module Placeholders {
  import opened Wrappers
  import opened Ascii

  /** One piece of a path pattern: a literal character, or a `{name}` placeholder. */
  datatype Token = Lit(c: char) | Param(name: string)

  /** The expression matches `s[0..j+1]`: an opening brace, one or more other characters, and the
      first closing brace after it. */
  predicate MatchEndsAt(s: string, j: int)
  {
    2 <= j < |s| && s[0] == '{' && s[j] == '}' && '}' !in s[1..j]
  }

  /** The index of the first occurrence of `c` in `s`. */
  function FirstIndexOf(s: string, c: char): (r: Option<nat>)
    ensures r.Some? ==> r.value < |s| && s[r.value] == c && c !in s[..r.value]
    ensures r.None? ==> c !in s
  {
    if |s| == 0 then None
    else if s[0] == c then Some(0)
    else match FirstIndexOf(s[1..], c)
      case None => None
      case Some(k) =>
        assert s[..k + 1] == [s[0]] + s[1..][..k];
        Some(k + 1)
  }

  /** Where the expression's match at the start of `s` ends, if it matches there. */
  function MatchAt(s: string): (r: Option<nat>)
    ensures r.Some? ==> MatchEndsAt(s, r.value)
    ensures r.None? ==> forall j :: !MatchEndsAt(s, j)
  {
    if |s| == 0 || s[0] != '{' then None
    else match FirstIndexOf(s, '}')
      case None => None
      case Some(j) =>
        assert s[..j][1..] == s[1..j];
        if j >= 2 then Some(j)
        else
          assert forall k :: MatchEndsAt(s, k) ==> s[1] in s[1..k];
          None
  }

  /** The expression matches somewhere in `s` (the source's `.test`). */
  predicate HasPathParams(s: string)
  {
    exists i :: 0 <= i < |s| && MatchAt(s[i..]).Some?
  }

  /** The pieces a global replace with the expression visits, left to right. */
  function Tokenize(s: string): (ts: seq<Token>)
    ensures forall t :: t in ts && t.Param? ==> |t.name| > 0 && '}' !in t.name
    decreases |s|
  {
    if |s| == 0 then []
    else match MatchAt(s)
      case Some(j) => [Param(s[1..j])] + Tokenize(s[j + 1..])
      case None => [Lit(s[0])] + Tokenize(s[1..])
  }

  /** The result of a global replace whose callback maps each placeholder name through `value`. */
  function Fill(ts: seq<Token>, value: string -> string): string
  {
    if |ts| == 0 then ""
    else
      (match ts[0]
       case Lit(c) => [c]
       case Param(n) => value(n)) + Fill(ts[1..], value)
  }

  /** The text a placeholder was matched from. */
  function Braced(name: string): string
  {
    "{" + name + "}"
  }

  /** The environment variable both the generated tests and the API client read a placeholder
      from: `PATH_` and the name upper-cased. */
  function EnvVarName(name: string): string
  {
    "PATH_" + Upper(name)
  }

  /** The placeholder names in order of appearance, repeats included. */
  function ParamNames(ts: seq<Token>): seq<string>
  {
    if |ts| == 0 then []
    else (if ts[0].Param? then [ts[0].name] else []) + ParamNames(ts[1..])
  }

  lemma {:induction false} FillAppend(a: seq<Token>, b: seq<Token>, value: string -> string)
    ensures Fill(a + b, value) == Fill(a, value) + Fill(b, value)
    decreases |a|
  {
    if |a| > 0 {
      assert (a + b)[0] == a[0];
      assert (a + b)[1..] == a[1..] + b;
      FillAppend(a[1..], b, value);
    } else {
      assert a + b == b;
    }
  }

  /** Putting every placeholder back between braces gives the pattern back: the scan loses and
      invents nothing, and literal text keeps its order. */
  lemma {:induction false} TokenizeRoundTrip(s: string)
    ensures Fill(Tokenize(s), Braced) == s
    decreases |s|
  {
    if |s| > 0 {
      match MatchAt(s)
      case Some(j) =>
        var rest := Tokenize(s[j + 1..]);
        assert Tokenize(s) == [Param(s[1..j])] + rest;
        TokenizeRoundTrip(s[j + 1..]);
        FillCons(Param(s[1..j]), rest, Braced);
        BracedSlice(s, j);
      case None =>
        var rest := Tokenize(s[1..]);
        assert Tokenize(s) == [Lit(s[0])] + rest;
        TokenizeRoundTrip(s[1..]);
        FillCons(Lit(s[0]), rest, Braced);
        assert s == [s[0]] + s[1..];
    }
  }

  lemma BracedSlice(s: string, j: nat)
    requires MatchEndsAt(s, j)
    ensures Braced(s[1..j]) + s[j + 1..] == s
  {
    assert s == [s[0]] + s[1..j] + [s[j]] + s[j + 1..];
  }

  lemma FillCons(t: Token, ts: seq<Token>, value: string -> string)
    ensures Fill([t] + ts, value) == (match t case Lit(c) => [c] case Param(n) => value(n)) + Fill(ts, value)
  {
    assert ([t] + ts)[0] == t && ([t] + ts)[1..] == ts;
  }

  /** The `.test` of the expression succeeds exactly when the global replace meets a placeholder. */
  lemma {:induction false} HasPathParamsIff(s: string)
    ensures HasPathParams(s) <==> |ParamNames(Tokenize(s))| > 0
    decreases |s|
  {
    if |s| == 0 {
    } else {
      match MatchAt(s)
      case Some(j) =>
        assert s[0..] == s;
      case None =>
        var ts := [Lit(s[0])] + Tokenize(s[1..]);
        assert ts[1..] == Tokenize(s[1..]);
        HasPathParamsIff(s[1..]);
        if HasPathParams(s) {
          var i :| 0 <= i < |s| && MatchAt(s[i..]).Some?;
          assert i != 0;
          assert s[1..][i - 1..] == s[i..];
        }
        if HasPathParams(s[1..]) {
          var i :| 0 <= i < |s[1..]| && MatchAt(s[1..][i..]).Some?;
          assert s[1..][i..] == s[i + 1..];
        }
    }
  }

  /** A pattern without placeholders is left alone by every replacement. */
  lemma {:induction false} FillWithoutParams(s: string, value: string -> string)
    requires !HasPathParams(s)
    ensures Fill(Tokenize(s), value) == s
    decreases |s|
  {
    HasPathParamsIff(s);
    NoParamsFill(Tokenize(s), value, Braced);
    TokenizeRoundTrip(s);
  }

  /** Without placeholders, the replacement callback never runs. */
  lemma {:induction false} NoParamsFill(ts: seq<Token>, f: string -> string, g: string -> string)
    requires |ParamNames(ts)| == 0
    ensures Fill(ts, f) == Fill(ts, g)
    decreases |ts|
  {
    if |ts| > 0 {
      NoParamsFill(ts[1..], f, g);
    }
  }

  /** Where there is no opening brace the expression cannot match. */
  lemma NoBraceNoParams(s: string)
    requires '{' !in s
    ensures !HasPathParams(s)
  {
    forall i | 0 <= i < |s|
      ensures MatchAt(s[i..]).None?
    {
      assert s[i..][0] == s[i];
    }
  }

  /** Literal text before any brace tokenizes character by character. */
  lemma {:induction false} TokenizeLiteralPrefix(a: string, b: string)
    requires '{' !in a
    ensures Tokenize(a + b) == seq(|a|, i requires 0 <= i < |a| => Lit(a[i])) + Tokenize(b)
    decreases |a|
  {
    if |a| > 0 {
      var s := a + b;
      assert s[0] == a[0];
      assert s[1..] == a[1..] + b;
      TokenizeLiteralPrefix(a[1..], b);
    } else {
      assert a + b == b;
    }
  }

  /** A well-formed placeholder is matched as a whole, whatever follows it. */
  lemma TokenizePlaceholder(name: string, rest: string)
    requires |name| > 0 && '}' !in name
    ensures Tokenize(Braced(name) + rest) == [Param(name)] + Tokenize(rest)
  {
    var s := Braced(name) + rest;
    var j := |name| + 1;
    assert s[1..j] == name;
    assert MatchEndsAt(s, j);
    assert MatchAt(s) == Some(j);
    assert s[j + 1..] == rest;
  }

  /** Filling literal characters gives them back. */
  lemma {:induction false} FillLiterals(a: string, value: string -> string)
    ensures Fill(seq(|a|, i requires 0 <= i < |a| => Lit(a[i])), value) == a
    decreases |a|
  {
    if |a| > 0 {
      var ts := seq(|a|, i requires 0 <= i < |a| => Lit(a[i]));
      assert ts[1..] == seq(|a[1..]|, i requires 0 <= i < |a[1..]| => Lit(a[1..][i]));
      FillLiterals(a[1..], value);
      assert a == [a[0]] + a[1..];
    }
  }

  /** Replacements that agree on every placeholder the pattern has give the same result. */
  lemma {:induction false} FillCongruent(ts: seq<Token>, f: string -> string, g: string -> string)
    requires forall n :: n in ParamNames(ts) ==> f(n) == g(n)
    ensures Fill(ts, f) == Fill(ts, g)
    decreases |ts|
  {
    if |ts| > 0 {
      assert ParamNames(ts) == (if ts[0].Param? then [ts[0].name] else []) + ParamNames(ts[1..]);
      FillCongruent(ts[1..], f, g);
    }
  }

  lemma {:induction false} ParamNamesAppend(a: seq<Token>, b: seq<Token>)
    ensures ParamNames(a + b) == ParamNames(a) + ParamNames(b)
    decreases |a|
  {
    if |a| > 0 {
      assert (a + b)[0] == a[0];
      assert (a + b)[1..] == a[1..] + b;
      ParamNamesAppend(a[1..], b);
    } else {
      assert a + b == b;
    }
  }

  /** `<prefix>{<n>}` with a brace-free prefix scans as the prefix's characters and one placeholder. */
  lemma OnePlaceholderTokens(a: string, n: string)
    requires '{' !in a && |n| > 0 && '}' !in n
    ensures Tokenize(a + "{" + n + "}") == seq(|a|, i requires 0 <= i < |a| => Lit(a[i])) + [Param(n)]
    ensures HasPathParams(a + "{" + n + "}")
  {
    var lits := seq(|a|, i requires 0 <= i < |a| => Lit(a[i]));
    assert a + "{" + n + "}" == a + (Braced(n) + "");
    TokenizeLiteralPrefix(a, Braced(n) + "");
    TokenizePlaceholder(n, "");
    HasPathParamsIff(a + "{" + n + "}");
    assert ParamNames([Param(n)]) == [n];
    ParamNamesAppend(lits, [Param(n)]);
  }

  /** Filling those tokens keeps the prefix and appends the placeholder's replacement. */
  lemma FillOnePlaceholder(a: string, n: string, value: string -> string)
    ensures Fill(seq(|a|, i requires 0 <= i < |a| => Lit(a[i])) + [Param(n)], value) == a + value(n)
  {
    var lits := seq(|a|, i requires 0 <= i < |a| => Lit(a[i]));
    FillAppend(lits, [Param(n)], value);
    FillLiterals(a, value);
    assert Fill([Param(n)], value) == value(n) + Fill([], value);
  }
}

=== FILE: testtitle.dfy ===
/**
 * The title of a generated test, `buildTestTitle`, and the escaping that embeds it between single
 * quotes in the emitted `test('…', …)` call.
 */
module TestTitle {
  import opened Wrappers
  import opened Ascii

  /** `<METHOD> <pathPattern>`, followed by ` - <summary>` when the summary is truthy. */
  function BuildTestTitle(httpMethod: string, pathPattern: string, summary: Option<string>): (title: string)
    ensures var head := Upper(httpMethod) + " " + pathPattern;
            |head| <= |title| && title[..|head|] == head
            && (|title| > |head| <==> IsTruthy(summary))
            && (IsTruthy(summary) ==> title[|head|..] == " - " + summary.value)
  {
    var head := Upper(httpMethod) + " " + pathPattern;
    if IsTruthy(summary) then head + " - " + summary.value else head
  }

  /** The escaping applied to the title: a backslash goes in front of every single quote. */
  function EscapeQuotes(t: string): (r: string)
    ensures |r| == |t| + Quotes(t)
    ensures forall i :: 0 <= i < |r| && r[i] == '\'' ==> 0 < i && r[i - 1] == '\\'
  {
    if |t| == 0 then ""
    else (if t[0] == '\'' then "\\'" else [t[0]]) + EscapeQuotes(t[1..])
  }

  /** The number of single quotes in `t`. */
  function Quotes(t: string): nat
  {
    if |t| == 0 then 0 else (if t[0] == '\'' then 1 else 0) + Quotes(t[1..])
  }

  /** `r` can stand between single quotes as a JavaScript string literal: no bare quote ends it
      early, no raw line break splits it, and every backslash escapes a character on the line. */
  predicate IsLiteralBody(r: string)
  {
    if |r| == 0 then true
    else if r[0] == '\\' then |r| >= 2 && r[1] != '\n' && r[1] != '\r' && IsLiteralBody(r[2..])
    else r[0] != '\'' && r[0] != '\n' && r[0] != '\r' && IsLiteralBody(r[1..])
  }

  /** The string a literal body denotes, reading a backslash and the character after it as that
      character, which is what JavaScript does for `\'` and `\\`. */
  function Unescape(r: string): string
  {
    if |r| == 0 then ""
    else if r[0] == '\\' && |r| >= 2 then [r[1]] + Unescape(r[2..])
    else [r[0]] + Unescape(r[1..])
  }

  /** For a title with no backslash and no line break, the emitted test name is a well-formed
      literal that denotes exactly the title. */
  lemma {:induction false} EscapeRoundTrip(t: string)
    requires '\\' !in t && '\n' !in t && '\r' !in t
    ensures IsLiteralBody(EscapeQuotes(t))
    ensures Unescape(EscapeQuotes(t)) == t
    decreases |t|
  {
    if |t| > 0 {
      var rest := EscapeQuotes(t[1..]);
      assert '\\' !in t[1..] && '\n' !in t[1..] && '\r' !in t[1..] by {
        assert forall c :: c in t[1..] ==> c in t;
      }
      EscapeRoundTrip(t[1..]);
      if t[0] == '\'' {
        assert ("\\'" + rest)[2..] == rest;
      } else {
        assert ([t[0]] + rest)[1..] == rest;
      }
      assert t == [t[0]] + t[1..];
    }
  }

  /** Reads every `\'` as `'` and copies everything else: the inverse of the escaping, for every
      title. */
  function DropQuoteEscapes(r: string): string
  {
    if |r| == 0 then ""
    else if |r| >= 2 && r[0] == '\\' && r[1] == '\'' then "'" + DropQuoteEscapes(r[2..])
    else [r[0]] + DropQuoteEscapes(r[1..])
  }

  /** The escaping only inserts a backslash before each quote and changes nothing else: removing
      those backslashes gives back any title, including one with backslashes or line breaks. */
  lemma {:induction false} EscapeInverse(t: string)
    ensures DropQuoteEscapes(EscapeQuotes(t)) == t
    decreases |t|
  {
    if |t| > 0 {
      var rest := EscapeQuotes(t[1..]);
      EscapeInverse(t[1..]);
      if t[0] == '\'' {
        var r := "\\'" + rest;
        assert r[2..] == rest;
        assert DropQuoteEscapes(r) == "'" + DropQuoteEscapes(rest);
      } else {
        var r := [t[0]] + rest;
        assert r[1..] == rest;
        assert |rest| > 0 ==> rest[0] != '\'';
        assert DropQuoteEscapes(r) == [t[0]] + DropQuoteEscapes(rest);
      }
      assert t == [t[0]] + t[1..];
    }
  }

  /** Text without single quotes is left as it is. */
  lemma {:induction false} EscapeWithoutQuotes(t: string)
    requires '\'' !in t
    ensures EscapeQuotes(t) == t
    decreases |t|
  {
    if |t| > 0 {
      assert t[0] in t;
      assert forall c :: c in t[1..] ==> c in t;
      EscapeWithoutQuotes(t[1..]);
      assert t == [t[0]] + t[1..];
    }
  }

  /** A backslash already in the title is not escaped, so a title that ends in one (a summary such
      as `C:\`) yields a test name that swallows the closing quote. */
  lemma BackslashBreaksLiteral(t: string)
    requires '\\' !in t && '\n' !in t && '\r' !in t
    ensures !IsLiteralBody(EscapeQuotes(t + "\\"))
  {
    EscapeRoundTrip(t);
    EscapeAppend(t, "\\");
    assert EscapeQuotes("\\") == "\\";
    AppendBackslashBreaks(EscapeQuotes(t));
  }

  lemma {:induction false} EscapeAppend(a: string, b: string)
    ensures EscapeQuotes(a + b) == EscapeQuotes(a) + EscapeQuotes(b)
    decreases |a|
  {
    if |a| > 0 {
      assert (a + b)[0] == a[0];
      assert (a + b)[1..] == a[1..] + b;
      EscapeAppend(a[1..], b);
    } else {
      assert a + b == b;
    }
  }

  lemma {:induction false} AppendBackslashBreaks(x: string)
    requires IsLiteralBody(x)
    ensures !IsLiteralBody(x + "\\")
    decreases |x|
  {
    if |x| > 0 {
      if x[0] == '\\' {
        assert (x + "\\")[2..] == x[2..] + "\\";
        AppendBackslashBreaks(x[2..]);
      } else {
        assert (x + "\\")[1..] == x[1..] + "\\";
        AppendBackslashBreaks(x[1..]);
      }
    } else {
      assert x + "\\" == "\\";
    }
  }
}

=== FILE: uri.dfy ===
/**
 * `encodeURIComponent` (the URI handling functions, section 19.2.6 of ECMA-262): every character
 * outside the letters, the digits and `-_.!~*'()` is replaced by the percent-encoded bytes of its
 * UTF-8 form, as in section 2.1 of RFC 3986, with upper-case hexadecimal digits.
 *
 * A Dafny `char` is a Unicode scalar value, so the lone surrogates on which the JavaScript function
 * throws cannot occur here.
 */
module UriComponent {
  import opened Wrappers
  import opened Ascii

  type Byte = x: int | 0 <= x < 256

  /** The characters `encodeURIComponent` leaves alone. */
  predicate IsUnescaped(c: char)
  {
    IsAlnum(c) || c == '-' || c == '_' || c == '.' || c == '!' || c == '~' || c == '*'
    || c == '\'' || c == '(' || c == ')'
  }

  predicate AllUnescaped(s: string)
  {
    forall i :: 0 <= i < |s| ==> IsUnescaped(s[i])
  }

  /** The UTF-8 form of one scalar value (section 3 of RFC 3629). */
  function Utf8(c: char): (bs: seq<Byte>)
    ensures 1 <= |bs| <= 4
    ensures |bs| == 1 <==> c as int < 0x80
    ensures forall k :: 1 <= k < |bs| ==> 0x80 <= bs[k] < 0xC0
  {
    var cp := c as int;
    if cp < 0x80 then [cp]
    else if cp < 0x800 then [0xC0 + cp / 64, 0x80 + cp % 64]
    else if cp < 0x10000 then [0xE0 + cp / 4096, 0x80 + (cp / 64) % 64, 0x80 + cp % 64]
    else [0xF0 + cp / 262144, 0x80 + (cp / 4096) % 64, 0x80 + (cp / 64) % 64, 0x80 + cp % 64]
  }

  /** The scalar value a well-formed UTF-8 sequence of one character stands for. */
  function Utf8Value(bs: seq<Byte>): int
  {
    var b := seq(|bs|, k requires 0 <= k < |bs| => bs[k] as int);
    if |b| == 1 then b[0]
    else if |b| == 2 then (b[0] - 0xC0) * 64 + (b[1] - 0x80)
    else if |b| == 3 then (b[0] - 0xE0) * 4096 + (b[1] - 0x80) * 64 + (b[2] - 0x80)
    else if |b| == 4 then (b[0] - 0xF0) * 262144 + (b[1] - 0x80) * 4096 + (b[2] - 0x80) * 64 + (b[3] - 0x80)
    else 0
  }

  /** The bytes of a character give the character back, and its lead byte announces the length. */
  lemma Utf8RoundTrip(c: char)
    ensures Utf8Value(Utf8(c)) == c as int
    ensures var bs := Utf8(c);
            (|bs| == 1 ==> bs[0] < 0x80)
            && (|bs| == 2 ==> 0xC0 <= bs[0] < 0xE0)
            && (|bs| == 3 ==> 0xE0 <= bs[0] < 0xF0)
            && (|bs| == 4 ==> 0xF0 <= bs[0] < 0xF8)
  {
    var cp := c as int;
    if cp < 0x80 {
    } else if cp < 0x800 {
      DivMod(cp, 64);
    } else if cp < 0x10000 {
      DivMod(cp, 64);
      DivMod(cp / 64, 64);
      DivMod(cp, 4096);
      assert cp / 4096 == (cp / 64) / 64;
    } else {
      DivMod(cp, 64);
      DivMod(cp / 64, 64);
      DivMod(cp / 4096, 64);
      DivMod(cp, 4096);
      DivMod(cp, 262144);
      assert cp / 4096 == (cp / 64) / 64;
      assert cp / 262144 == (cp / 4096) / 64;
    }
  }

  lemma DivMod(x: int, d: int)
    requires 0 <= x && 0 < d
    ensures x == (x / d) * d + x % d && 0 <= x % d < d
  {
  }

  /** The bytes of a string: the UTF-8 forms of its characters, one after another. */
  function Utf8String(s: string): seq<Byte>
  {
    if |s| == 0 then [] else Utf8(s[0]) + Utf8String(s[1..])
  }

  const HexDigits: string := "0123456789ABCDEF"

  /** `%XY` for each byte, with `X` and `Y` its upper-case hexadecimal digits, high digit first. */
  function Percent(bs: seq<Byte>): (r: string)
    ensures |r| == 3 * |bs|
    ensures forall k :: 0 <= k < |bs| ==>
              r[3 * k] == '%' && r[3 * k + 1] == HexDigits[bs[k] / 16] && r[3 * k + 2] == HexDigits[bs[k] % 16]
  {
    if |bs| == 0 then ""
    else
      var head := ['%', HexDigits[bs[0] / 16], HexDigits[bs[0] % 16]];
      var tail := Percent(bs[1..]);
      var r := head + tail;
      assert forall k :: 0 <= k < |bs| ==>
               r[3 * k] == '%' && r[3 * k + 1] == HexDigits[bs[k] / 16] && r[3 * k + 2] == HexDigits[bs[k] % 16] by {
        forall k | 0 <= k < |bs|
          ensures r[3 * k] == '%' && r[3 * k + 1] == HexDigits[bs[k] / 16] && r[3 * k + 2] == HexDigits[bs[k] % 16]
        {
          if k > 0 {
            var j := k - 1;
            assert bs[1..][j] == bs[k];
            assert r[3 * k] == tail[3 * j] && r[3 * k + 1] == tail[3 * j + 1] && r[3 * k + 2] == tail[3 * j + 2];
          }
        }
      }
      r
  }

  /** The replacement text for one character. */
  function EncodeChar(c: char): (r: string)
    ensures IsUnescaped(c) ==> r == [c]
    ensures !IsUnescaped(c) ==> 3 <= |r| <= 12 && r[0] == '%'
  {
    if IsUnescaped(c) then [c] else Percent(Utf8(c))
  }

  /** The characters `encodeURIComponent` can produce. */
  predicate IsOutputChar(c: char)
  {
    IsUnescaped(c) || c == '%' || c in HexDigits
  }

  function EncodeURIComponent(s: string): (r: string)
    ensures forall i :: 0 <= i < |r| ==> IsOutputChar(r[i])
    ensures |r| >= |s|
  {
    if |s| == 0 then ""
    else
      var head := EncodeChar(s[0]);
      var tail := EncodeURIComponent(s[1..]);
      assert forall i :: 0 <= i < |head| ==> IsOutputChar(head[i]) by {
        if !IsUnescaped(s[0]) {
          PercentAlphabet(Utf8(s[0]));
        }
      }
      head + tail
  }

  /** The encoding works character by character: encoding a concatenation encodes each part. */
  lemma {:induction false} EncodeAppend(a: string, b: string)
    ensures EncodeURIComponent(a + b) == EncodeURIComponent(a) + EncodeURIComponent(b)
    decreases |a|
  {
    if |a| > 0 {
      assert (a + b)[0] == a[0];
      assert (a + b)[1..] == a[1..] + b;
      EncodeAppend(a[1..], b);
    } else {
      assert a + b == b;
    }
  }

  /** A single character becomes its replacement text: itself when unreserved, otherwise the
      percent escapes of its UTF-8 bytes. */
  lemma EncodeOne(c: char)
    ensures EncodeURIComponent([c]) == EncodeChar(c)
    ensures IsUnescaped(c) ==> EncodeURIComponent([c]) == [c]
    ensures !IsUnescaped(c) ==> EncodeURIComponent([c]) == Percent(Utf8(c))
  {
    assert [c][1..] == "";
  }

  /** `a/b` is encoded as `a%2Fb`: the letters stay and only the slash is escaped. */
  lemma SlashExample(s: string)
    requires s == "a/b"
    ensures EncodeURIComponent(s) == "a%2Fb"
  {
    assert s == ['a'] + ['/'] + ['b'];
    EncodeAppend(['a'] + ['/'], ['b']);
    EncodeAppend(['a'], ['/']);
    EncodeOne('a');
    EncodeOne('/');
    EncodeOne('b');
    SlashEscape();
  }

  /** The slash is the single byte 0x2F, escaped as `%2F`. */
  lemma SlashEscape()
    ensures EncodeChar('/') == "%2F"
  {
    assert Utf8('/') == [0x2F];
    assert HexDigits[2] == '2' && HexDigits[15] == 'F';
  }

  lemma {:induction false} PercentAlphabet(bs: seq<Byte>)
    ensures forall i :: 0 <= i < |Percent(bs)| ==> IsOutputChar(Percent(bs)[i])
    decreases |bs|
  {
    if |bs| > 0 {
      PercentAlphabet(bs[1..]);
      var r := Percent(bs);
      var t := Percent(bs[1..]);
      assert r == ['%', HexDigits[bs[0] / 16], HexDigits[bs[0] % 16]] + t;
      forall i | 0 <= i < |r| ensures IsOutputChar(r[i]) {
        if i >= 3 {
          assert r[i] == t[i - 3];
        }
      }
    }
  }

  /** A string made only of unreserved characters comes back unchanged, and only such a string
      does. */
  lemma {:induction false} EncodeIdentityIff(s: string)
    ensures EncodeURIComponent(s) == s <==> AllUnescaped(s)
    decreases |s|
  {
    if |s| > 0 {
      EncodeIdentityIff(s[1..]);
      var tail := EncodeURIComponent(s[1..]);
      if IsUnescaped(s[0]) {
        assert EncodeURIComponent(s) == [s[0]] + tail;
        assert s == [s[0]] + s[1..];
        if AllUnescaped(s) {
          assert AllUnescaped(s[1..]);
        }
        if EncodeURIComponent(s) == s {
          assert tail == s[1..];
        }
        if AllUnescaped(s[1..]) {
          forall i | 0 <= i < |s| ensures IsUnescaped(s[i]) {
            if i > 0 {
              assert s[i] == s[1..][i - 1];
            }
          }
        }
      } else {
        assert |EncodeURIComponent(s)| > |s|;
      }
    }
  }

  /** The value of an upper- or lower-case hexadecimal digit. */
  function HexValue(c: char): Option<nat>
  {
    if '0' <= c <= '9' then Some(c as int - '0' as int)
    else if 'A' <= c <= 'F' then Some(c as int - 'A' as int + 10)
    else if 'a' <= c <= 'f' then Some(c as int - 'a' as int + 10)
    else None
  }

  /** Reads percent-encoded text back into bytes: `%XY` is a byte and any other ASCII character
      stands for itself. Fails on a malformed escape or a non-ASCII character. */
  function PercentDecode(t: string): Option<seq<Byte>>
    decreases |t|
  {
    if |t| == 0 then Some([])
    else if t[0] == '%' then
      if |t| >= 3 && HexValue(t[1]).Some? && HexValue(t[2]).Some? && HexValue(t[1]).value * 16 + HexValue(t[2]).value < 256 then
        match PercentDecode(t[3..])
        case None => None
        case Some(rest) => Some([HexValue(t[1]).value * 16 + HexValue(t[2]).value] + rest)
      else None
    else if (t[0] as int) < 0x80 then
      match PercentDecode(t[1..])
      case None => None
      case Some(rest) => Some([t[0] as int] + rest)
    else None
  }

  lemma HexDigitValue(n: nat)
    requires n < 16
    ensures HexValue(HexDigits[n]) == Some(n)
  {
  }

  /** One `%XY` escape decodes to its byte, in front of whatever the rest decodes to. */
  lemma DecodeOneByte(b: Byte, tail: string)
    ensures PercentDecode(tail).None? ==> PercentDecode(['%', HexDigits[b / 16], HexDigits[b % 16]] + tail).None?
    ensures PercentDecode(tail).Some?
            ==> PercentDecode(['%', HexDigits[b / 16], HexDigits[b % 16]] + tail) == Some([b] + PercentDecode(tail).value)
  {
    var t := ['%', HexDigits[b / 16], HexDigits[b % 16]] + tail;
    HexDigitValue(b / 16);
    HexDigitValue(b % 16);
    assert t[0] == '%' && t[1] == HexDigits[b / 16] && t[2] == HexDigits[b % 16];
    assert t[3..] == tail;
    assert (b / 16) * 16 + b % 16 == b;
  }

  /** Percent-encoded bytes decode to those bytes, in front of whatever follows decodes to. */
  lemma {:induction false} DecodePercent(bs: seq<Byte>, rest: string)
    ensures PercentDecode(rest).None? ==> PercentDecode(Percent(bs) + rest).None?
    ensures PercentDecode(rest).Some? ==> PercentDecode(Percent(bs) + rest) == Some(bs + PercentDecode(rest).value)
    decreases |bs|
  {
    if |bs| > 0 {
      var head := ['%', HexDigits[bs[0] / 16], HexDigits[bs[0] % 16]];
      var tail := Percent(bs[1..]) + rest;
      assert Percent(bs) == head + Percent(bs[1..]);
      assert Percent(bs) + rest == head + tail;
      DecodeOneByte(bs[0], tail);
      DecodePercent(bs[1..], rest);
      if PercentDecode(rest).Some? {
        var r := PercentDecode(rest).value;
        assert bs + r == [bs[0]] + (bs[1..] + r);
      }
    } else {
      assert Percent(bs) + rest == rest;
      if PercentDecode(rest).Some? {
        assert bs + PercentDecode(rest).value == PercentDecode(rest).value;
      }
    }
  }

  /** An unreserved character is ASCII, so it is its own single UTF-8 byte. */
  lemma UnescapedIsAscii(c: char)
    requires IsUnescaped(c)
    ensures Utf8(c) == [c as int]
  {
  }

  /** Decoding the encoded string yields the string's UTF-8 bytes: no character is lost, added or
      altered by the encoding. */
  lemma {:induction false} EncodeRoundTrip(s: string)
    ensures PercentDecode(EncodeURIComponent(s)) == Some(Utf8String(s))
    decreases |s|
  {
    if |s| > 0 {
      EncodeRoundTrip(s[1..]);
      var tail := EncodeURIComponent(s[1..]);
      if IsUnescaped(s[0]) {
        UnescapedIsAscii(s[0]);
        var t := [s[0]] + tail;
        assert EncodeURIComponent(s) == t;
        assert t[1..] == tail;
      } else {
        DecodePercent(Utf8(s[0]), tail);
      }
    }
  }
}

=== FILE: wrappers.dfy ===
/** Optional values and results that may fail, as used across the model. */
module Wrappers {

  /** A value that may be absent (`undefined` in the source). */
  datatype Option<+T> = None | Some(value: T)

  /** The outcome of an operation that can throw. */
  datatype Result<+R, +E> = Success(value: R) | Failure(error: E)

  /** JavaScript truthiness of an optional string: present and not empty. */
  predicate IsTruthy(s: Option<string>)
  {
    s.Some? && s.value != ""
  }
}
